=== FILE: README.md ===
# Persona parser — a Dafny model

This project models the text-processing core of the Reddit persona finder
(`persona_streamlit_app.py`). That core does two things:

- **Reading the model's answer.** The language model answers in a fixed
  layout of bold headings (`**Motivations:** …`). `parse_llm_response`
  cuts the answer into sections with `extract_section` and reads each one:
  - motivations, frustrations and behavioural habits are read as
    `entry (evidence)` pairs by `extract_key_value_pairs`;
  - goals are read as a bullet list by `extract_bullet_list`;
  - the quote is unquoted;
  - five scalar fields keep their text;
  - the personality line (`80% Introverted, 30% Intuitive`) becomes four
    text bars through `generate_personality_bars`.
- **Checking the profile link.** The web form checks that a link starts
  with `https://www.reddit.com/user/` and then cuts the username out of it.

Everything is pure functions on `string` (`seq<char>`), with lemmas that
state what each one promises:

- round trips that write a value into the layout and read it back;
- first-match and last-writer-wins rules;
- rounding bounds;
- "nothing else changes" facts.

Modules, in dependency order:

| file | module | what it holds |
|---|---|---|
| options.dfy | Options | `Option` |
| chars.dfy | Chars | Python's `isspace`, line breaks, `\d`, `\w`, `upper`/`capitalize` |
| trim.dfy | Trim | `str.strip(chars)`, as cutting a slice, and its uniqueness |
| search.dfy | Search | first occurrence, `str.split`, `str.join`, `rsplit` at one character, greedy runs |
| lines.dfy | Lines | `str.splitlines` |
| section.dfy | Section | `extract_section` |
| lists.dfy | Lists | `extract_bullet_list`, `extract_key_value_pairs` |
| bars.dfy | Bars | `generate_personality_bars` |
| persona.dfy | Persona | `parse_llm_response` |
| profile.dfy | Profile | the profile-link check and the username cut |

## Model

| member | source | states |
|---|---|---|
| Chars.LineBreakIsSpace | persona_streamlit_app.py:53-54 | Every character that ends a line for `splitlines` is also whitespace for `strip`, so a blank line strips to nothing. |
| Chars.Capitalize | persona_streamlit_app.py:92 | `capitalize` keeps the length and agrees with the word ignoring case. Its first character is not a lower-case letter, and no later character is an upper-case letter. |
| Chars.CapitalizeUnique | persona_streamlit_app.py:92 | Those facts pin the result down: any text with them is the capitalized word. |
| Chars.CapitalizeIgnoresCase | persona_streamlit_app.py:92-96 | Two words give the same score key exactly when they agree ignoring case, in both directions. |
| Chars.CapitalizeIdempotent | persona_streamlit_app.py:92-96 | A key that is already capitalized is its own key. |
| Chars.CapitalizeFixed | persona_streamlit_app.py:96 | A word with an upper-case first letter and the rest lower-case is its own key. This holds for all four left labels. |
| Trim.Strip | persona_streamlit_app.py:73 | `strip(chars)` leaves no dropped character at either end. |
| Trim.StripSpace | persona_streamlit_app.py:50 | `strip()` with no argument leaves no whitespace at either end. |
| Trim.StripIsSlice | persona_streamlit_app.py:50 | The stripped text is a contiguous slice of the input. |
| Trim.StripUnique | persona_streamlit_app.py:50 | The strip is the one slice that drops only dropped characters before and after and keeps neither at its ends. |
| Trim.StripPadded | persona_streamlit_app.py:50 | Padding a trimmed text with dropped characters on both sides and stripping gives it back. |
| Trim.StripTrimmed | persona_streamlit_app.py:50 | Stripping a trimmed text changes nothing. |
| Trim.StripIdempotent | persona_streamlit_app.py:54 | Stripping twice with the same characters is stripping once. |
| Trim.StripEmptyIff | persona_streamlit_app.py:54 | The strip is empty exactly when every character is dropped, in both directions. This is the `if line.strip()` test. |
| Trim.StripSubset | persona_streamlit_app.py:62 | Stripping adds no character, so the detail after the last '(' still holds no '('. |
| Search.FindFromSpec | persona_streamlit_app.py:48-49 | The search from a position reports the first occurrence at or after it. It reports nothing exactly when there is none. |
| Search.FindSpec | persona_streamlit_app.py:48-49 | `re.search` takes the leftmost heading marker: it is an occurrence, there is none before it, and none is reported only when none exists. |
| Search.FindAt | persona_streamlit_app.py:48-49 | An occurrence with none before it is the one found. |
| Search.SplitBy | persona_streamlit_app.py:86 | `split` gives at least one part, and no part contains the separator. |
| Search.JoinSplit | persona_streamlit_app.py:86 | Joining the parts of a split with the separator gives back the text. |
| Search.JoinEnds | persona_streamlit_app.py:53 | Non-empty parts joined with a separator begin with the first part's first character and end with the last part's last character. |
| Search.SplitWithoutSeparator | persona_streamlit_app.py:86 | A text without the separator splits into itself alone. |
| Search.SplitNone | persona_streamlit_app.py:183 | A text that holds no copy of the separator splits into itself alone. |
| Search.SplitAppend | persona_streamlit_app.py:86 | Appending a separator and a separator-free clause adds exactly that clause as a last part. |
| Search.LastIndexOf | persona_streamlit_app.py:61 | `rsplit("(", 1)` cuts at a '(' with no '(' after it. |
| Search.SpanFrom | persona_streamlit_app.py:89 | A greedy run covers only matching characters and stops at the first character that does not match. |
| Search.OccursInSuffix | persona_streamlit_app.py:183 | An occurrence in a text past a cut point is an occurrence in the rest after the cut, and the other way round. |
| Search.SpanFromOf | persona_streamlit_app.py:89 | A run of matching characters followed by a non-matching one is exactly the greedy run. |
| Lines.SplitLines | persona_streamlit_app.py:53 | No line holds a line break, and the text has no lines exactly when it is empty. |
| Lines.SplitJoinedLines | persona_streamlit_app.py:53 | Break-free lines joined with '\n' split back into the same lines, when the last line is not empty. |
| Lines.AllSpaceLines | persona_streamlit_app.py:53-54 | A text is all whitespace exactly when each of its lines is. |
| Section.CaptureEnd | persona_streamlit_app.py:48 | The lazy capture ends between where it begins and the end of the text. |
| Section.CaptureEndIsFirstStop | persona_streamlit_app.py:48 | The lazy `(.*?)` stops at the first place where a "\n**" follows, or at the end, or before a final '\n'. It stops at no earlier such place. |
| Section.CaptureEndUnique | persona_streamlit_app.py:48 | Any position that is a stop with no stop before it is where the capture ends. |
| Section.CaptureStart | persona_streamlit_app.py:48 | `\s*` skips exactly the whitespace after the marker. |
| Section.CaptureHasNoHeading | persona_streamlit_app.py:48-50 | The stripped capture never holds "\n**". |
| Section.ExtractSection | persona_streamlit_app.py:47-50 | A section is stripped of whitespace and never runs into the next bold line. |
| Section.SectionAbsent | persona_streamlit_app.py:50 | Without the heading's marker the section is "". |
| Section.FindMarkerAfter | persona_streamlit_app.py:48-49 | The first marker is found right after a prefix that does not hold it. |
| Section.SectionRoundTrip | persona_streamlit_app.py:47-50 | A trimmed body written after the first copy of its marker, with whitespace between, is read back exactly. The body must hold no "\n**" and be followed by the end or by "\n**". |
| Section.SectionFromAt | persona_streamlit_app.py:48-50 | When the capture after a marker begins and ends around a trimmed body, the section read there is that body. |
| Section.SectionAfterFound | persona_streamlit_app.py:48-50 | The same holds when the search found the marker: the section is the body that follows it. |
| Section.JoinedLinesNoHeading | persona_streamlit_app.py:48 | Non-empty, break-free lines that do not start with '*', joined with '\n', never hold "\n**", so a multi-line body does not stop early. |
| Section.LinesSectionRoundTrip | persona_streamlit_app.py:47-50 | Such lines written after the first copy of their marker, with the first and last character not whitespace, are read back joined, as written. |
| Section.EmptySectionTakesNextLine | persona_streamlit_app.py:48 | Example: in "**Age:**" followed by a line "**Occupation:** Engineer", the Age section is "**Occupation:** Engineer". |
| Section.NoNewlineNoHeading | persona_streamlit_app.py:48 | A single-line value can never hold a heading start. |
| Lists.CleanLine | persona_streamlit_app.py:54 | A cleaned line is trimmed of whitespace. |
| Lists.CleanBulletLine | persona_streamlit_app.py:54 | Any run of bullet marks, dashes and spaces in front of a clean entry is removed. The entry itself is kept. |
| Lists.BulletItems | persona_streamlit_app.py:54 | Blank lines are skipped, so there are never more entries than lines, and every entry is trimmed. |
| Lists.ExtractBulletList | persona_streamlit_app.py:52-54 | Every entry is trimmed, and there are never more entries than lines. |
| Lists.HasContent | persona_streamlit_app.py:54 | The test `if line.strip()` holds exactly when the line is not all whitespace. |
| Lists.BulletItemsEmptyIff | persona_streamlit_app.py:54 | No entry comes out exactly when every line is blank. |
| Lists.BulletListEmptyIff | persona_streamlit_app.py:52-54 | The list is empty exactly when the section is all whitespace. |
| Lists.BulletItemsSingle | persona_streamlit_app.py:54 | One line gives its cleaned text when it is not blank, and nothing when it is. |
| Lists.BulletItemsAppend | persona_streamlit_app.py:53-54 | The entries of two runs of lines are the entries of the first followed by those of the second. |
| Lists.BulletItemsOfContent | persona_streamlit_app.py:54 | When every line is non-blank and cleans to the matching item, the entries are exactly those items. |
| Lists.MarkedLineCleans | persona_streamlit_app.py:54 | A clean entry behind any run of bullet marks is non-blank and cleans back to the entry. |
| Lists.BulletItemsOfMarked | persona_streamlit_app.py:54 | Clean entries, each behind its own run of bullet marks, are read back unchanged and in order. |
| Lists.BulletListMarkedRoundTrip | persona_streamlit_app.py:52-54 | Clean entries written one per line behind any bullet marks are read back unchanged and in order. |
| Lists.BulletItemsOfClean | persona_streamlit_app.py:54 | Clean lines come back unchanged and in order. |
| Lists.BulletListRoundTrip | persona_streamlit_app.py:52-54 | Clean entries written one per line are read back unchanged and in order. |
| Lists.BulletMarksIgnored | persona_streamlit_app.py:54 | "- x", "• x" and "x" all give the entry "x". |
| Lists.DashOnlyGivesEmpty | persona_streamlit_app.py:54 | A line holding only "-" passes the blank-line test and still gives an empty entry. |
| Lists.LastParenIsLastIndex | persona_streamlit_app.py:61 | The '(' with no '(' after it is the last '(' of the line. |
| Lists.SplitAtParen | persona_streamlit_app.py:61-62 | Cutting at the last '(' gives a key trimmed of whitespace. The detail holds no '(' and has no ')' at either end. |
| Lists.SplitItem | persona_streamlit_app.py:59-64 | Every line gives a pair whose key is trimmed and whose detail is free of '(' and of outer ')'. |
| Lists.SplitItemPlain | persona_streamlit_app.py:63-64 | A line without both brackets gives the cleaned line and an empty detail. |
| Lists.SplitItemAtLastParen | persona_streamlit_app.py:60-62 | A cleaned line that holds a ')' anywhere and a '(' splits at its last '(': the key is the text before it, trimmed of whitespace, and the detail is the text after it without outer ')'. Together with Lists.SplitItemPlain this gives the pair of every line. |
| Lists.KeyBeforeParen | persona_streamlit_app.py:62 | `parts[0].strip()` of a trimmed key followed by the space before its '(' gives the key back. |
| Lists.UnclosedLineIsClean | persona_streamlit_app.py:59 | A line `key (detail` that begins and ends with a kept character is unchanged by the cleaning. |
| Lists.UnclosedLineLastParen | persona_streamlit_app.py:61 | In `key (detail`, with no '(' in the detail, the '(' after the key is the last one. |
| Lists.UnclosedLineSplits | persona_streamlit_app.py:59-62 | A line `key (detail` with no closing bracket after the '(' but a ')' inside the key still splits into the key and the detail. |
| Lists.CloseBeforeParenExample | persona_streamlit_app.py:60-62 | "x) y (z", whose ')' comes before its last '(', gives the pair ("x) y", "z"). |
| Lists.SplitItemBlank | persona_streamlit_app.py:58-64 | A blank line still gives a pair, with an empty key and an empty detail. |
| Lists.WrittenLineIsClean | persona_streamlit_app.py:59 | A line written as `key (detail)` is unchanged by the cleaning. |
| Lists.WrittenLineLastParen | persona_streamlit_app.py:61 | In `key (detail)))`, the '(' after the key is the last one. |
| Lists.WrittenLineSplits | persona_streamlit_app.py:61-62 | Cutting `key (detail)))` at that '(' gives back the key and the detail. |
| Lists.WrittenLineRoundTrip | persona_streamlit_app.py:59-62 | A line written as `key (detail)))` is read back as the pair. |
| Lists.SplitItemRoundTrip | persona_streamlit_app.py:59-62 | Any writable pair, written with one or more closing brackets, is read back as itself. |
| Lists.ItemLineNoBreak | persona_streamlit_app.py:58 | A written pair is a single line. |
| Lists.ExtractKeyValuePairs | persona_streamlit_app.py:56-65 | One pair per line, blank lines included. There are no pairs exactly when the section is empty. |
| Lists.KeyValueRoundTrip | persona_streamlit_app.py:56-65 | Writable pairs written one per line as `key (detail)` are read back unchanged and in order. |
| Lists.NestedBracketExample | persona_streamlit_app.py:61-62 | With a bracket inside the key, only the last bracket splits, so the inner one stays in the key. |
| Bars.DecimalValue | persona_streamlit_app.py:91 | `int()` of a run of digits is below ten to the number of digits. It is at least ten to one less than that when the first digit is not zero. |
| Bars.NumeralRoundTrip | persona_streamlit_app.py:91 | `int()` reads back every numeral that `str()` writes. `Bars.Numeral` is that writer; the program itself never writes a percentage. |
| Bars.DecimalRoundTrip | persona_streamlit_app.py:91 | Writing back what `int()` reads from a numeral without a leading zero gives the numeral. |
| Bars.MatchReading | persona_streamlit_app.py:89 | A match reads a non-empty word of word characters, and only from a text that starts with a digit. |
| Bars.MatchReadingComplete | persona_streamlit_app.py:89 | Any text that starts with digits, '%', whitespace and a whole word matches, with that number and that word, whatever follows. |
| Bars.MatchAt | persona_streamlit_app.py:89 | The match reads exactly the digits, whitespace and word runs found at their positions. |
| Bars.MatchReadingSound | persona_streamlit_app.py:89-92 | Whatever matches was written in that shape, and the reading is its numeral and word. This is the converse of the completeness lemma. |
| Bars.ShapeAt | persona_streamlit_app.py:89 | The pieces a match cuts the text into have the pattern's shape and make up the text. |
| Bars.ParseClause | persona_streamlit_app.py:89 | A reading always has a non-empty word. |
| Bars.ParseClauseRoundTrip | persona_streamlit_app.py:89-92 | A clause written as a percentage and a word, with any whitespace around it, reads back as that number and word. |
| Bars.ClauseTrimmed | persona_streamlit_app.py:89 | A clause of that shape has no whitespace at either end, so `strip()` leaves it alone. |
| Bars.Tally | persona_streamlit_app.py:87-93 | Every key of the score table is capitalized and comes from some reading. |
| Bars.TallyLastWins | persona_streamlit_app.py:93 | A key's score is the percentage of the last reading of that key. |
| Bars.TallyAbsent | persona_streamlit_app.py:90-93 | A key that no reading names is not in the table. |
| Bars.TallyAppend | persona_streamlit_app.py:93 | A reading of another key neither adds nor changes this key. |
| Bars.Readings | persona_streamlit_app.py:88-89 | There is one reading attempt per clause. |
| Bars.Scores | persona_streamlit_app.py:86-93 | The score table over the clauses has only capitalized keys. |
| Bars.ScoresLastWins | persona_streamlit_app.py:86-93 | The last clause that reads as a key decides its score. |
| Bars.ScoresAbsent | persona_streamlit_app.py:86-93 | A key that no clause reads as gets no score. |
| Bars.ScoresAppend | persona_streamlit_app.py:86-93 | A further clause that reads as another key, or as nothing, leaves this key's score as it was. |
| Bars.ScoreOf | persona_streamlit_app.py:96 | A left label that no score names scores 0. |
| Bars.FilledCells | persona_streamlit_app.py:98 | The filled cells are within half a cell of `score / 5`, stated as `5n <= s + 2 && s <= 5n + 2`. |
| Bars.FilledCellsRounds | persona_streamlit_app.py:98 | The filled count is the unique integer nearest to `s / 100 * 20`, in real arithmetic. |
| Bars.FilledCellsFit | persona_streamlit_app.py:97-99 | The filled cells fit in the bar exactly when the percentage is at most 102. |
| Bars.Times | persona_streamlit_app.py:100 | `c * k` has `k` copies of `c`, and none when `k` is negative. |
| Bars.PadRight | persona_streamlit_app.py:100 | `{:<11}` keeps the text as a prefix and fills the rest with spaces, to at least eleven characters. |
| Bars.LabelColumn | persona_streamlit_app.py:100 | The label column is at least eleven characters wide and at least as wide as the left label. |
| Bars.Cells | persona_streamlit_app.py:97-100 | `"■" * left_len + "-" * right_len`: cell `j` is '■' exactly when `j` is below the filled count, and '-' otherwise. There are twenty cells, or the filled count when it is over twenty. |
| Bars.GeneratePersonalityBars | persona_streamlit_app.py:102-107 | There is one bar per axis. |
| Bars.CountConcat | persona_streamlit_app.py:100 | Counting marks in joined text adds the counts. |
| Bars.CountUniform | persona_streamlit_app.py:100 | A run of one character holds that character as often as it is long, and no other. |
| Bars.UpperKeepsOut | persona_streamlit_app.py:100 | A character that is neither in the label nor an ASCII upper-case letter, such as a cell mark, does not occur in the upper-cased label. |
| Bars.CountBarPieces | persona_streamlit_app.py:100 | The brackets hold no cell mark, so the marks of a bar are those of its labels and cells. |
| Bars.BarMarks | persona_streamlit_app.py:100 | With plain labels, a bar holds as many filled marks as filled cells and as many empty marks as empty cells. |
| Bars.RenderBar | persona_streamlit_app.py:100 | A bar is as wide as the label column, four bracket characters, the cells and the right label. With plain labels it holds exactly the filled count of filled marks and the rest of the twenty cells as empty marks. |
| Bars.RenderBarLayout | persona_streamlit_app.py:100 | Read from left to right, a bar is the upper-cased left label, spaces up to the label column, " [", the cells in order, "] " and the upper-cased right label. |
| Bars.AxesPlain | persona_streamlit_app.py:103-106 | The labels of the four axes hold neither cell mark. |
| Bars.BracketColumn | persona_streamlit_app.py:100 | A left label of at most eleven characters puts the '[' in column twelve. |
| Bars.BarsAligned | persona_streamlit_app.py:100-106 | All four bars open their bracket in the same column, whatever the input. |
| Bars.Clauses | persona_streamlit_app.py:86 | There is at least one clause, and no clause holds a ','. |
| Bars.BarFollowsLastReading | persona_streamlit_app.py:86-100 | An axis's bar is drawn with the rounded percentage of the last clause that reads as its left label. The bar's filled-mark count equals that number. |
| Bars.BarDefaultsToEmpty | persona_streamlit_app.py:96-100 | An axis that no clause names gets a bar with no filled cell. |
| Bars.BarOfScore | persona_streamlit_app.py:96-100 | The bar of an axis shows its rounded score. |
| Bars.OtherClauseIgnored | persona_streamlit_app.py:86-107 | Appending a clause that names no left label changes no bar. |
| Bars.SameScoresSameBars | persona_streamlit_app.py:95-107 | The bars depend on the text only through the scores of the four left labels: texts that agree on those give the same bars. |
| Bars.RightLabelIgnored | persona_streamlit_app.py:96 | Appending a clause that names a right label, such as "70% Extroverted", changes no bar, because only left labels are looked up. |
| Bars.KeysDiffer | persona_streamlit_app.py:103-106 | No right label capitalizes to a left label. |
| Bars.TwoClauseExample | persona_streamlit_app.py:85-107 | "80% Introverted, 30% Intuitive" fills 16 and 6 cells of the first two bars and none of the last two. |
| Bars.LeftKeys | persona_streamlit_app.py:96 | Each left label is its own score key. |
| Persona.ParseResponse | persona_streamlit_app.py:67-83 | The quote has no surrounding double quotes. Every scalar field is trimmed and free of "\n**", every goal is trimmed, and there are four bars. |
| Persona.ZeroBars | persona_streamlit_app.py:96-107 | The default bars have no filled cell. |
| Persona.NoStarNoMarker | persona_streamlit_app.py:48 | Text without a '*' holds no heading marker. |
| Persona.EmptyLineZeroBars | persona_streamlit_app.py:86-107 | An empty personality line gives four empty bars. |
| Persona.NoMarkerEmptyPersona | persona_streamlit_app.py:67-83 | An answer that holds none of the eleven `**heading:**` markers reads as the empty persona: no entries, empty fields, empty bars. |
| Persona.EmptySectionsEmptyPersona | persona_streamlit_app.py:67-83 | An answer whose eleven sections are all empty reads as the empty persona. |
| Persona.NoStarEmptyPersona | persona_streamlit_app.py:67-83 | In particular, an answer without a '*' reads as the empty persona. |
| Persona.ErrorGivesEmptyPersona | persona_streamlit_app.py:44-45 | A failed model call, whose error text has no '*', is read as the empty persona and not as an error. |
| Persona.ErrorResponse | persona_streamlit_app.py:45 | The error answer is the message inside `[Error querying LLM: …]`, and it holds a '*' exactly when the message does. |
| Persona.QuoteRoundTrip | persona_streamlit_app.py:73 | A quote written in double quotes after its heading comes back without them. |
| Persona.QuoteMarksStripped | persona_streamlit_app.py:73 | `strip('"')` removes exactly the surrounding double quotes. |
| Persona.ScalarRoundTrip | persona_streamlit_app.py:74-78 | A trimmed single-line value written after one of the five scalar headings comes back as that field. |
| Persona.PairsSection | persona_streamlit_app.py:47-65 | Writable pairs written one per line after a heading, none with a key starting with '*', are the whole section, and reading it gives back the pairs. |
| Persona.PairsRoundTrip | persona_streamlit_app.py:67-71 | Such pairs written after the Motivations, Frustrations or Behavioral habits marker come back as that field, unchanged and in order. |
| Persona.GoalsSection | persona_streamlit_app.py:47-54 | Clean goals written one per line after their heading, none starting with '*', are the whole section, and the bullet list of it gives them back. |
| Persona.GoalsRoundTrip | persona_streamlit_app.py:72 | Such goals come back as the goals field, unchanged and in order. |
| Persona.PersonalityRoundTrip | persona_streamlit_app.py:81-82 | A trimmed single-line personality line written after its marker gives exactly the bars of that line. |
| Profile.StripEnd | persona_streamlit_app.py:183 | `rstrip("/")` is a prefix of the link. It removes only trailing slashes and leaves no slash at the end. |
| Profile.HasProfilePrefix | persona_streamlit_app.py:180 | `startswith` holds exactly when the link's first characters are the profile prefix, and then the link is the prefix followed by the rest. |
| Profile.ProfileUsername | persona_streamlit_app.py:180-183 | A username is produced exactly when the link starts with the profile prefix, and it never holds a '/'. |
| Profile.FirstSegment | persona_streamlit_app.py:183 | `split("/")[0]` holds no '/'. |
| Profile.FirstSegmentAt | persona_streamlit_app.py:183 | `split("/")[0]` is the text up to the first '/' or the end. |
| Profile.SplitLastPart | persona_streamlit_app.py:183 | When the first "/user/" ends the prefix and the rest holds no "/user/", the last part of the split is the rest. |
| Profile.SplitLastAfter | persona_streamlit_app.py:183 | When a text begins with its first copy of the separator, the last part of its split is the last part of the split of what follows. |
| Profile.StepAfterSlashFree | persona_streamlit_app.py:183 | In `a/user/name` with both sides slash-free, the last part of the split at "/user/" is `name`. |
| Profile.StripSlashes | persona_streamlit_app.py:183 | `rstrip("/")` removes exactly the trailing run of slashes from a text that does not otherwise end in '/'. |
| Profile.SplitWithoutLast | persona_streamlit_app.py:183 | A text without '/' holds no "/user/". |
| Profile.FirstAtEnd | persona_streamlit_app.py:183 | The first "/user/" is found at the end of the prefix. |
| Profile.UserStepOnlyAtEnd | persona_streamlit_app.py:180-183 | The profile prefix holds "/user/" only at its end. |
| Profile.ProfileUsernameRoundTrip | persona_streamlit_app.py:180-183 | A slash-free name after the prefix, with any trailing slashes, comes back as the username. |
| Profile.ProfileUsernamePath | persona_streamlit_app.py:180-183 | A slash-free name after the prefix, followed by '/' and a path without "/user/", comes back as the username. |
| Profile.StrippedPath | persona_streamlit_app.py:183 | `rstrip("/")` of such a link keeps the prefix and a beginning of the path that holds at least the name. |
| Profile.NoUserStepAfterName | persona_streamlit_app.py:183 | A slash-free name followed by a path without "/user/" holds no "/user/", nor does any beginning of it. |
| Profile.CommentLinkExample | persona_streamlit_app.py:180-183 | The comment link `https://www.reddit.com/user/kojied/comments/x` gives "kojied". |
| Profile.ProfileUsernameLastStep | persona_streamlit_app.py:180-183 | With a second "/user/" in the link, `prefix + a/user/name` with any trailing slashes gives `name`, the step after the last "/user/", while the corrected cut gives `a`. |
| Profile.LastStepAsWritten | persona_streamlit_app.py:183 | The cut as written takes the step after the last "/user/" of such a link. |
| Profile.LastStepChecked | persona_streamlit_app.py:180-183 | The corrected cut takes the step right after the prefix of such a link. |
| Profile.SecondUserStepExample | persona_streamlit_app.py:180-183 | `https://www.reddit.com/user/a/user/b` gives "b" as written and "a" with the corrected cut. |
| Profile.BarePrefixAccepted | persona_streamlit_app.py:180-183 | The bare prefix passes the link check, and the username cut from it is "https:". |
| Profile.PrefixScheme | persona_streamlit_app.py:180-183 | The prefix begins with "https:", which holds no '/', and then a '/'. This is where the cut of the bare prefix stops. |
| Profile.NoUserStep | persona_streamlit_app.py:183 | Without its last '/', the prefix holds no "/user/". |
| Profile.ProfileUsernameChecked | persona_streamlit_app.py:180-183 | The corrected cut gives a non-empty, slash-free name, and only for links with the prefix. |
| Profile.CheckedUsernameSpec | persona_streamlit_app.py:183 | The corrected username is the text right after the prefix, up to the end or the next '/'. |
| Profile.CheckedFirstStep | persona_streamlit_app.py:180-183 | The corrected cut takes the slash-free step right after the prefix, whatever path follows it. |
| Profile.CheckedUsernameRoundTrip | persona_streamlit_app.py:180-183 | On every well-formed link the corrected cut and the cut as written agree on the name. |
| Profile.CheckedRejectsBarePrefix | persona_streamlit_app.py:180-183 | The corrected cut rejects the prefix followed by nothing but slashes. |

## Left out

- The language-model call, the Reddit client and the Streamlit page are not modelled. They are I/O or calls into libraries. The model starts from the answer text and from the link text.
- `build_persona` (persona_streamlit_app.py:109-171) is not modelled beyond its call to `parse_llm_response`. It fetches the user's posts and comments, builds the prompt, queries the model, renders the Jinja text template `templates/persona_template.txt` and writes the report file. All of that is I/O or library code.
- Chars.Capitalize: models ASCII case mapping only. Python's `capitalize`/`upper` also map other letters, and a few of them change length (for example 'ß' upper-cases to "SS"). The labels and the example clauses are ASCII.
- Bars.MatchReading: `\d` and `\w` are modelled as ASCII digits and ASCII word characters. Python's patterns on `str` also accept other Unicode digits and letters, and `int()` would read those digits too.
- Bars.FilledCells: uses exact rounding of `s / 5`, and always draws a bar. Python computes `left_score / 100 * bar_length` in floating point (persona_streamlit_app.py:98). That agrees for every percentage a person writes, but the float result can differ from exact rounding once the score reaches about 10^15. For a numeral of about 309 to 311 digits, `left_score / 100` still fits in a float but the product with `bar_length` is infinite, and `round()` raises `OverflowError`. For longer numerals the division itself raises `OverflowError`. In both cases the page fails where the model draws a full bar. A numeral longer than the interpreter's digit limit already makes `int()` raise; the model reads it.
- Lists.ExtractKeyValuePairs: its contract gives the count and emptiness only. The contents are stated line by line by Lists.SplitItemAtLastParen and Lists.SplitItemPlain, and for written pairs by Lists.KeyValueRoundTrip.
- Persona.ParseResponse: its contract gives the shape of each field only. The contents are stated by Persona.ScalarRoundTrip, Persona.QuoteRoundTrip, Persona.PairsRoundTrip, Persona.GoalsRoundTrip and Persona.PersonalityRoundTrip.
- Bars.GeneratePersonalityBars: its contract gives the bar count only. The contents are stated by Bars.BarFollowsLastReading, Bars.BarDefaultsToEmpty and Bars.RenderBarLayout.

Behaviours of the code worth knowing:

- one pair is produced for every line of a pair section, blank lines included;
- the detail of a pair has every outer ')' stripped but is not whitespace-trimmed;
- a heading directly followed by another heading takes that next heading's line as its text;
- the answer is read for eleven headings.

## Findings

| source | as written | input that shows it | evidently intended | confidence | as-written member | corrected member |
|---|---|---|---|---|---|---|
| persona_streamlit_app.py:180-183 | The link check only tests the prefix, and the username is cut after `rstrip("/")`, so the prefix's own "/user/" loses its slash and is no longer found. | `https://www.reddit.com/user/` passes the link check and gives the username "https:". | A link with no name after the prefix is rejected. Otherwise the username is the path step right after the prefix. The corrected cut also differs from the code when the path holds a second "/user/": the code takes the step after the last one (`…/user/a/user/b` gives "b"), the corrected cut gives "a"; Profile.ProfileUsernameLastStep states both. | medium, not executed | Profile.BarePrefixAccepted | Profile.CheckedRejectsBarePrefix |

=== FILE: bars.dfy ===
/** The personality bars: a comma-separated line such as
    "80% Introverted, 30% Intuitive" is read clause by clause, and each of
    four fixed axes is drawn as a bar of twenty cells whose filled part
    follows the percentage given for the axis's left label. */
module Bars {
  import opened Options
  import opened Chars
  import opened Trim
  import opened Search

  // ---------------------------------------------------------------------
  // Reading one clause
  // ---------------------------------------------------------------------

  /** What a clause says: the word and the percentage before it. */
  datatype Reading = Reading(word: string, percent: nat)

  predicate AllDigits(d: string) {
    forall k :: 0 <= k < |d| ==> IsDigit(d[k])
  }

  function Pow10(n: nat): (p: nat)
    ensures p >= 1
  {
    if n == 0 then 1 else 10 * Pow10(n - 1)
  }

  /** The value of a run of decimal digits, as `int()` reads it: below
      `10^|d|`, and at least `10^(|d|-1)` when the first digit is not zero. */
  function DecimalValue(d: string): (v: nat)
    requires AllDigits(d)
    ensures v < Pow10(|d|)
    ensures d != [] && d[0] != '0' ==> Pow10(|d| - 1) <= v
    decreases |d|
  {
    if d == [] then 0 else DecimalValue(d[..|d| - 1]) * 10 + (d[|d| - 1] as int - '0' as int)
  }

  /** The decimal numeral of `n` without leading zeros, as `str(n)` writes it. */
  function Numeral(n: nat): (d: string)
    ensures d != [] && AllDigits(d)
    decreases n
  {
    (if n < 10 then [] else Numeral(n / 10)) + [('0' as int + n % 10) as char]
  }

  /** Reading back a written numeral gives the number. */
  lemma {:induction false} NumeralRoundTrip(n: nat)
    ensures DecimalValue(Numeral(n)) == n
    decreases n
  {
    var d := Numeral(n);
    var init := if n < 10 then [] else Numeral(n / 10);
    assert d[..|d| - 1] == init;
    if n >= 10 {
      NumeralRoundTrip(n / 10);
    }
  }

  /** The other way round: writing back the value of a numeral without a
      leading zero gives the numeral. */
  lemma {:induction false} DecimalRoundTrip(d: string)
    requires d != [] && AllDigits(d) && (d[0] != '0' || |d| == 1)
    ensures Numeral(DecimalValue(d)) == d
    decreases |d|
  {
    var v := DecimalValue(d);
    var init := d[..|d| - 1];
    var last := d[|d| - 1] as int - '0' as int;
    assert v == DecimalValue(init) * 10 + last;
    if |d| == 1 {
      assert v == last;
      assert Numeral(v) == [('0' as int + last) as char];
    } else {
      assert init[0] == d[0];
      DecimalRoundTrip(init);
      assert v / 10 == DecimalValue(init) && v % 10 == last;
      assert v >= 10 by {
        assert Pow10(|init| - 1) <= DecimalValue(init);
      }
      assert Numeral(v) == Numeral(v / 10) + [('0' as int + last) as char];
      assert d == init + [d[|d| - 1]];
    }
  }

  /** The shape the pattern `(\d+)%\s+(\w+)` matches at the start of a text:
      digits, a percent sign, whitespace and a word, where the word is the
      whole run of word characters (what follows it is not one). */
  predicate ClauseShape(digits: string, gap: string, word: string, rest: string) {
    && digits != [] && AllDigits(digits)
    && gap != [] && (forall k :: 0 <= k < |gap| ==> IsSpace(gap[k]))
    && word != [] && (forall k :: 0 <= k < |word| ==> IsWordChar(word[k]))
    && (rest == [] || !IsWordChar(rest[0]))
  }

  /** `re.match(r"(\d+)%\s+(\w+)", t)`: the percentage and the word when
      `t` starts with the pattern. Each greedy class runs as far as
      it can; backtracking never helps, because the character after each
      run cannot start what the pattern needs next. */
  function MatchReading(t: string): (r: Option<Reading>)
    ensures r.Some? ==> r.value.word != []
    ensures r.Some? ==> forall k :: 0 <= k < |r.value.word| ==> IsWordChar(r.value.word[k])
    ensures r.Some? ==> 0 < |t| && IsDigit(t[0])
  {
    var d := Span(t, IsDigit);
    if d == 0 || d == |t| || t[d] != '%' then None
    else
      var w := SpanFrom(t, IsSpace, d + 1);
      if w == d + 1 then None
      else
        var e := SpanFrom(t, IsWordChar, w);
        if e == w then None
        else
          assert AllDigits(t[..d]);
          Some(Reading(t[w..e], DecimalValue(t[..d])))
  }

  /** Every text of the shape the pattern describes is read as its numeral
      and its word, whatever follows. */
  lemma MatchReadingComplete(digits: string, gap: string, word: string, rest: string)
    requires ClauseShape(digits, gap, word, rest)
    ensures MatchReading(digits + "%" + gap + word + rest)
         == Some(Reading(word, DecimalValue(digits)))
  {
    var t := digits + "%" + gap + word + rest;
    var d := |digits|;
    var w := d + 1 + |gap|;
    var e := w + |word|;
    assert forall k :: 0 <= k < d ==> t[k] == digits[k];
    assert forall k :: d + 1 <= k < w ==> t[k] == gap[k - d - 1];
    assert forall k :: w <= k < e ==> t[k] == word[k - w];
    assert t[d] == '%' && t[w] == word[0];
    assert e < |t| ==> t[e] == rest[0];
    assert t[..d] == digits && t[w..e] == word;
    MatchAt(t, d, w, e);
  }

  /** The scan reads the clause that has its digits before `d`, its
      whitespace from `d + 1` to `w` and its word from `w` to `e`. */
  lemma MatchAt(t: string, d: nat, w: nat, e: nat)
    requires 0 < d && d + 1 < w < e <= |t| && t[d] == '%'
    requires forall k :: 0 <= k < d ==> IsDigit(t[k])
    requires forall k :: d + 1 <= k < w ==> IsSpace(t[k])
    requires forall k :: w <= k < e ==> IsWordChar(t[k])
    requires e == |t| || !IsWordChar(t[e])
    ensures AllDigits(t[..d])
    ensures MatchReading(t) == Some(Reading(t[w..e], DecimalValue(t[..d])))
  {
    assert !IsSpace(t[w]) by {
      assert IsWordChar(t[w]);
    }
    SpanFromOf(t, IsDigit, 0, d);
    SpanFromOf(t, IsSpace, d + 1, w);
    SpanFromOf(t, IsWordChar, w, e);
  }

  /** `t` is written as a clause of that shape, and `r` is its numeral
      and its word. */
  predicate WrittenAs(t: string, r: Reading, digits: string, gap: string, word: string, rest: string) {
    && ClauseShape(digits, gap, word, rest)
    && t == digits + "%" + gap + word + rest
    && r == Reading(word, DecimalValue(digits))
  }

  /** Whatever is read comes from a text of that shape: the reading is its
      numeral and its word. */
  lemma MatchReadingSound(t: string)
    ensures MatchReading(t).Some? ==>
      exists digits, gap, word, rest :: WrittenAs(t, MatchReading(t).value, digits, gap, word, rest)
  {
    if MatchReading(t).Some? {
      var d := Span(t, IsDigit);
      var w := SpanFrom(t, IsSpace, d + 1);
      var e := SpanFrom(t, IsWordChar, w);
      assert 0 < d && d + 1 < w < e <= |t| && t[d] == '%';
      ShapeAt(t, d, w, e);
      assert MatchReading(t).value == Reading(t[w..e], DecimalValue(t[..d]));
    }
  }

  /** The four pieces a successful scan cuts a text into have the shape
      the pattern describes and make up the text. */
  lemma ShapeAt(t: string, d: nat, w: nat, e: nat)
    requires 0 < d && d + 1 < w < e <= |t| && t[d] == '%'
    requires forall k :: 0 <= k < d ==> IsDigit(t[k])
    requires forall k :: d + 1 <= k < w ==> IsSpace(t[k])
    requires forall k :: w <= k < e ==> IsWordChar(t[k])
    requires e == |t| || !IsWordChar(t[e])
    ensures AllDigits(t[..d])
    ensures WrittenAs(t, Reading(t[w..e], DecimalValue(t[..d])), t[..d], t[d + 1..w], t[w..e], t[e..])
  {
    assert e < |t| ==> t[e..][0] == t[e];
    assert t[d..d + 1] == "%";
    Pieces(t, d, d + 1, w, e);
  }

  /** Cutting a text at four places and joining the pieces gives it back. */
  lemma Pieces(t: string, a: nat, b: nat, c: nat, d: nat)
    requires a <= b <= c <= d <= |t|
    ensures t == t[..a] + t[a..b] + t[b..c] + t[c..d] + t[d..]
  {
    assert t[..d] == t[..a] + t[a..b] + t[b..c] + t[c..d];
  }

  /** One clause of the personality line, read after stripping whitespace. */
  function ParseClause(clause: string): (r: Option<Reading>)
    ensures r.Some? ==> r.value.word != []
  {
    MatchReading(StripSpace(clause))
  }

  /** Round trip: a clause written as a numeral, "%", whitespace and a word,
      with any whitespace around it, reads back as that number and word. */
  lemma ParseClauseRoundTrip(lead: string, digits: string, gap: string, word: string, trail: string)
    requires forall k :: 0 <= k < |lead| ==> IsSpace(lead[k])
    requires forall k :: 0 <= k < |trail| ==> IsSpace(trail[k])
    requires ClauseShape(digits, gap, word, [])
    ensures ParseClause(lead + digits + "%" + gap + word + trail)
         == Some(Reading(word, DecimalValue(digits)))
  {
    var core := digits + "%" + gap + word;
    ClauseTrimmed(digits, gap, word);
    assert lead + digits + "%" + gap + word + trail == lead + core + trail;
    StripPadded(lead, core, trail, IsSpace);
    assert core + [] == core;
    MatchReadingComplete(digits, gap, word, []);
  }

  /** A clause of that shape has no whitespace at either end. */
  lemma ClauseTrimmed(digits: string, gap: string, word: string)
    requires ClauseShape(digits, gap, word, [])
    ensures Trimmed(digits + "%" + gap + word, IsSpace)
  {
    var core := digits + "%" + gap + word;
    assert core[0] == digits[0] && core[|core| - 1] == word[|word| - 1];
  }

  // ---------------------------------------------------------------------
  // Collecting the scores
  // ---------------------------------------------------------------------

  /** The reading's word, capitalized, is `key`: `match.group(2).capitalize()`. */
  predicate Names(r: Option<Reading>, key: string) {
    r.Some? && Capitalize(r.value.word) == key
  }

  /** The score table built from readings taken in order: a later reading
      of the same word overwrites an earlier one, and a clause that was not
      read is skipped. */
  function Tally(readings: seq<Option<Reading>>): (m: map<string, nat>)
    ensures forall key :: key in m ==> Capitalize(key) == key
    ensures forall key :: key in m ==> exists i :: 0 <= i < |readings| && Names(readings[i], key)
    decreases |readings|
  {
    if readings == [] then map[]
    else
      var init := readings[..|readings| - 1];
      var m := Tally(init);
      assert forall i :: 0 <= i < |init| ==> init[i] == readings[i];
      match readings[|readings| - 1]
      case None => m
      case Some(r) =>
        CapitalizeIdempotent(r.word);
        m[Capitalize(r.word) := r.percent]
  }

  /** The last reading of a word decides its score. */
  lemma {:induction false} TallyLastWins(readings: seq<Option<Reading>>, key: string, i: nat)
    requires i < |readings| && Names(readings[i], key)
    requires forall j :: i < j < |readings| ==> !Names(readings[j], key)
    ensures key in Tally(readings) && Tally(readings)[key] == readings[i].value.percent
    decreases |readings|
  {
    var n := |readings| - 1;
    var init := readings[..n];
    if i < n {
      assert init[i] == readings[i];
      forall j | i < j < |init| ensures !Names(init[j], key) {
        assert init[j] == readings[j];
      }
      TallyLastWins(init, key, i);
      assert !Names(readings[n], key);
    }
  }

  /** A word that is never read has no score. */
  lemma TallyAbsent(readings: seq<Option<Reading>>, key: string)
    requires forall j :: 0 <= j < |readings| ==> !Names(readings[j], key)
    ensures key !in Tally(readings)
  {
  }

  /** One more reading leaves the score of every word it does not name as
      it was. */
  lemma TallyAppend(readings: seq<Option<Reading>>, r: Option<Reading>, key: string)
    requires !Names(r, key)
    ensures key in Tally(readings + [r]) <==> key in Tally(readings)
    ensures key in Tally(readings) ==> Tally(readings + [r])[key] == Tally(readings)[key]
  {
    assert (readings + [r])[..|readings|] == readings;
  }

  /** The clause is read, and its word is `key`. */
  predicate ReadsKey(clause: string, key: string) {
    Names(ParseClause(clause), key)
  }

  /** Each clause read on its own. */
  function Readings(clauses: seq<string>): (rs: seq<Option<Reading>>)
    ensures |rs| == |clauses|
  {
    seq(|clauses|, i requires 0 <= i < |clauses| => ParseClause(clauses[i]))
  }

  /** The score table of the personality line's clauses. */
  function Scores(clauses: seq<string>): (m: map<string, nat>)
    ensures forall key :: key in m ==> Capitalize(key) == key
  {
    Tally(Readings(clauses))
  }

  /** The last clause read for a word decides its score. */
  lemma ScoresLastWins(clauses: seq<string>, key: string, i: nat)
    requires i < |clauses| && ReadsKey(clauses[i], key)
    requires forall j :: i < j < |clauses| ==> !ReadsKey(clauses[j], key)
    ensures key in Scores(clauses)
    ensures Scores(clauses)[key] == ParseClause(clauses[i]).value.percent
  {
    var rs := Readings(clauses);
    assert forall j :: 0 <= j < |clauses| ==> rs[j] == ParseClause(clauses[j]);
    TallyLastWins(rs, key, i);
  }

  /** A word that no clause is read as has no score. */
  lemma ScoresAbsent(clauses: seq<string>, key: string)
    requires forall j :: 0 <= j < |clauses| ==> !ReadsKey(clauses[j], key)
    ensures key !in Scores(clauses)
  {
    var rs := Readings(clauses);
    assert forall j :: 0 <= j < |clauses| ==> rs[j] == ParseClause(clauses[j]);
    TallyAbsent(rs, key);
  }

  /** Reading one more clause leaves the score of every word it is not read
      as unchanged. */
  lemma ScoresAppend(clauses: seq<string>, clause: string, key: string)
    requires !ReadsKey(clause, key)
    ensures key in Scores(clauses + [clause]) <==> key in Scores(clauses)
    ensures key in Scores(clauses) ==> Scores(clauses + [clause])[key] == Scores(clauses)[key]
  {
    assert Readings(clauses + [clause]) == Readings(clauses) + [ParseClause(clause)];
    TallyAppend(Readings(clauses), ParseClause(clause), key);
  }

  // ---------------------------------------------------------------------
  // Drawing the bars
  // ---------------------------------------------------------------------

  /** One bar: the trait on the left, whose percentage fills the bar, and
      the opposite trait on the right. */
  datatype Axis = Axis(left: string, right: string)

  /** The four axes, in the order the bars are drawn. */
  const Axes: seq<Axis> := [
    Axis("Introverted", "Extroverted"),
    Axis("Intuitive", "Sensing"),
    Axis("Feeling", "Thinking"),
    Axis("Perceiving", "Judging")
  ]

  const BarLength: nat := 20

  /** The width the left label is padded to. */
  const LabelWidth: nat := 11

  const FilledMark: char := '■'
  const EmptyMark: char := '-'

  /** The score for an axis: the one recorded for its capitalized left
      label, or 0 when there is none. */
  function ScoreOf(scores: map<string, nat>, left: string): (s: nat)
    ensures Capitalize(left) !in scores ==> s == 0
  {
    var key := Capitalize(left);
    if key in scores then scores[key] else 0
  }

  /** How many of the twenty cells a percentage fills:
      `round(s / 100 * 20)`, that is the integer nearest to s / 5. A tie
      cannot happen, as s / 5 never ends in one half. */
  function FilledCells(s: nat): (n: nat)
    ensures 5 * n <= s + 2 && s <= 5 * n + 2
  {
    (s + 2) / 5
  }

  /** `FilledCells` is Python's rounding of the exact quotient: it is within
      one half of s / 100 * 20, and no other integer is. */
  lemma FilledCellsRounds(s: nat, n: int)
    ensures -0.5 < FilledCells(s) as real - s as real / 100.0 * 20.0 < 0.5
    ensures -0.5 < n as real - s as real / 100.0 * 20.0 < 0.5 ==> n == FilledCells(s)
  {
    var f := FilledCells(s);
    assert s as real / 100.0 * 20.0 == s as real / 5.0;
    if -0.5 < n as real - s as real / 5.0 < 0.5 {
      assert -2.5 < 5.0 * n as real - s as real < 2.5;
      assert -2 <= 5 * n - s <= 2;
      assert -2 <= 5 * f - s <= 2;
      assert -4 <= 5 * (n - f) <= 4;
    }
  }

  /** The filled cells fit in the bar exactly up to a score of 102. */
  lemma FilledCellsFit(s: nat)
    ensures FilledCells(s) <= BarLength <==> s <= 102
  {
  }

  /** `c * k` in Python: `k` copies of `c`, and the empty string for a
      count below one. */
  function Times(c: char, k: int): (r: string)
    ensures |r| == if k < 0 then 0 else k
    ensures forall j :: 0 <= j < |r| ==> r[j] == c
  {
    if k <= 0 then [] else seq(k, _ => c)
  }

  /** `f"{s:<width}"`: `s` padded on the right with spaces to `width`. */
  function PadRight(s: string, width: nat): (r: string)
    ensures |r| == if |s| < width then width else |s|
    ensures r[..|s|] == s
    ensures forall j :: |s| <= j < |r| ==> r[j] == ' '
  {
    s + Times(' ', width - |s|)
  }

  /** Where the cells of a bar begin, less the two characters " [": the
      label column, or the label's end when the label is longer. */
  function LabelColumn(axis: Axis): (w: nat)
    ensures |axis.left| <= w && LabelWidth <= w
  {
    if |axis.left| < LabelWidth then LabelWidth else |axis.left|
  }

  /** The cells between the brackets: `filled` filled marks, then empty ones
      up to twenty (none when over-filled). */
  function Cells(filled: nat): (c: string)
    ensures |c| == if filled <= BarLength then BarLength else filled
    ensures forall j :: 0 <= j < |c| ==> c[j] == if j < filled then FilledMark else EmptyMark
  {
    Times(FilledMark, filled) + Times(EmptyMark, BarLength - filled)
  }

  /** The bar for an axis with `filled` cells filled: the left label
      upper-cased and padded to the label column, the cells in brackets, then
      the right label upper-cased. Its width is the label column (or the
      label, when longer), four bracket characters, twenty cells (or more,
      when over-filled) and the right label; when neither label holds a cell
      mark, the bar holds exactly `filled` filled marks and the rest of the
      twenty cells empty. */
  function RenderBar(axis: Axis, filled: nat): (r: string)
    ensures |r| == LabelColumn(axis) + 4 + |Cells(filled)| + |axis.right|
    ensures PlainAxis(axis) ==> Count(r, FilledMark) == filled
    ensures PlainAxis(axis) ==> Count(r, EmptyMark) == if filled <= BarLength then BarLength - filled else 0
  {
    var padded := PadRight(Upper(axis.left), LabelWidth);
    var cells := Times(FilledMark, filled);
    var empty := Times(EmptyMark, BarLength - filled);
    var right := Upper(axis.right);
    BarMarks(axis, padded, cells, empty, right, FilledMark);
    BarMarks(axis, padded, cells, empty, right, EmptyMark);
    assert padded + " [" + Cells(filled) + "] " + right == padded + " [" + cells + empty + "] " + right;
    padded + " [" + Cells(filled) + "] " + right
  }

  /** The bar read from left to right: the upper-cased left label, spaces up
      to the label column, " [", the cells, "] " and the upper-cased right
      label. */
  lemma RenderBarLayout(axis: Axis, filled: nat)
    ensures var r := RenderBar(axis, filled);
      var w := LabelColumn(axis);
      var n := |Cells(filled)|;
      && r[..|axis.left|] == Upper(axis.left)
      && (forall j :: |axis.left| <= j < w ==> r[j] == ' ')
      && r[w..w + 2] == " ["
      && r[w + 2..w + 2 + n] == Cells(filled)
      && r[w + 2 + n..w + 4 + n] == "] "
      && r[w + 4 + n..] == Upper(axis.right)
  {
  }

  /** `generate_personality_bars`: one bar per axis, in order, each filled
      after the score of its left label. */
  function GeneratePersonalityBars(text: string): (bars: seq<string>)
    ensures |bars| == |Axes|
  {
    var scores := Scores(SplitBy(text, ","));
    seq(|Axes|, k requires 0 <= k < |Axes| => RenderBar(Axes[k], FilledCells(ScoreOf(scores, Axes[k].left))))
  }

  // ---------------------------------------------------------------------
  // Reading a bar back
  // ---------------------------------------------------------------------

  /** How often `c` occurs in `s`. */
  function Count(s: string, c: char): nat
    decreases |s|
  {
    if s == [] then 0 else (if s[0] == c then 1 else 0) + Count(s[1..], c)
  }

  lemma {:induction false} CountConcat(a: string, b: string, c: char)
    ensures Count(a + b, c) == Count(a, c) + Count(b, c)
    decreases |a|
  {
    if a != [] {
      var ab := a + b;
      assert ab != [] && ab[0] == a[0];
      assert ab[1..] == a[1..] + b;
      CountConcat(a[1..], b, c);
      assert Count(ab, c) == (if a[0] == c then 1 else 0) + Count(a[1..] + b, c);
    } else {
      assert a + b == b;
    }
  }

  lemma {:induction false} CountUniform(s: string, c: char, d: char)
    requires forall j :: 0 <= j < |s| ==> s[j] == d
    ensures Count(s, c) == if c == d then |s| else 0
    decreases |s|
  {
    if s != [] {
      CountUniform(s[1..], c, d);
    }
  }

  lemma {:induction false} CountAbsent(s: string, c: char)
    requires forall j :: 0 <= j < |s| ==> s[j] != c
    ensures Count(s, c) == 0
    decreases |s|
  {
    if s != [] {
      CountAbsent(s[1..], c);
    }
  }

  /** How many cells of a drawn bar are filled. */
  function FilledOf(bar: string): nat {
    Count(bar, FilledMark)
  }

  /** The labels of an axis hold neither cell mark. */
  predicate PlainAxis(axis: Axis) {
    && FilledMark !in axis.left && FilledMark !in axis.right
    && EmptyMark !in axis.left && EmptyMark !in axis.right
  }

  /** A character that is neither in the label nor an ASCII upper-case
      letter does not occur in the upper-cased label. */
  lemma UpperKeepsOut(s: string, c: char)
    requires c !in s && !IsAsciiUpper(c)
    ensures Count(Upper(s), c) == 0
  {
    forall j | 0 <= j < |Upper(s)| ensures Upper(s)[j] != c {
      assert s[j] in s;
    }
    CountAbsent(Upper(s), c);
  }

  /** The marks of one kind in the pieces of a bar: none in the labels, and
      the cells hold only their own mark. */
  lemma BarMarks(axis: Axis, padded: string, cells: string, empty: string, right: string, c: char)
    requires c == FilledMark || c == EmptyMark
    requires padded == PadRight(Upper(axis.left), LabelWidth) && right == Upper(axis.right)
    requires forall j :: 0 <= j < |cells| ==> cells[j] == FilledMark
    requires forall j :: 0 <= j < |empty| ==> empty[j] == EmptyMark
    ensures PlainAxis(axis) ==>
              Count(padded + " [" + cells + empty + "] " + right, c)
              == (if c == FilledMark then |cells| else |empty|)
  {
    if !PlainAxis(axis) {
      return;
    }
    assert Count(padded, c) == 0 by {
      var pad := Times(' ', LabelWidth - |Upper(axis.left)|);
      assert padded == Upper(axis.left) + pad;
      UpperKeepsOut(axis.left, c);
      CountUniform(pad, c, ' ');
      CountConcat(Upper(axis.left), pad, c);
    }
    assert Count(right, c) == 0 by {
      UpperKeepsOut(axis.right, c);
    }
    CountUniform(cells, c, FilledMark);
    CountUniform(empty, c, EmptyMark);
    CountBarPieces(padded, cells, empty, right, c);
  }

  /** The brackets of a bar hold no cell mark, so the marks of a bar are
      those of its labels and cells. */
  lemma CountBarPieces(padded: string, cells: string, empty: string, right: string, c: char)
    requires c == FilledMark || c == EmptyMark
    ensures Count(padded + " [" + cells + empty + "] " + right, c)
         == Count(padded, c) + Count(cells, c) + Count(empty, c) + Count(right, c)
  {
    CountAbsent(" [", c);
    CountAbsent("] ", c);
    CountConcat(padded, " [", c);
    CountConcat(padded + " [", cells, c);
    CountConcat(padded + " [" + cells, empty, c);
    CountConcat(padded + " [" + cells + empty, "] ", c);
    CountConcat(padded + " [" + cells + empty + "] ", right, c);
  }

  /** Every left label is at most eleven characters, so every bar opens its
      bracket in the same column. */
  lemma BarsAligned(text: string, k: nat)
    requires k < |Axes|
    ensures GeneratePersonalityBars(text)[k][LabelWidth + 1] == '['
  {
    var n := FilledCells(ScoreOf(Scores(SplitBy(text, ",")), Axes[k].left));
    assert GeneratePersonalityBars(text)[k] == RenderBar(Axes[k], n);
    LeftLabelFits(k);
    BracketColumn(Axes[k], n);
  }

  lemma LeftLabelFits(k: nat)
    requires k < |Axes|
    ensures |Axes[k].left| <= LabelWidth
  {
  }

  /** A bar whose left label fits the column opens its bracket right after
      the column and the space behind it. */
  lemma BracketColumn(axis: Axis, filled: nat)
    requires |axis.left| <= LabelWidth
    ensures RenderBar(axis, filled)[LabelWidth + 1] == '['
  {
    var padded := PadRight(Upper(axis.left), LabelWidth);
    assert |padded| == LabelWidth;
    var rest := Times(FilledMark, filled) + Times(EmptyMark, BarLength - filled) + "] " + Upper(axis.right);
    assert RenderBar(axis, filled) == (padded + " [") + rest;
  }

  // ---------------------------------------------------------------------
  // Which clause decides a bar
  // ---------------------------------------------------------------------

  /** The clauses of the personality line: `text.split(",")`. */
  function Clauses(text: string): (r: seq<string>)
    ensures |r| >= 1 && forall k :: 0 <= k < |r| ==> ',' !in r[k]
  {
    var r := SplitBy(text, ",");
    forall k | 0 <= k < |r| ensures ',' !in r[k] {
      if ',' in r[k] {
        var j :| 0 <= j < |r[k]| && r[k][j] == ',';
        OccursSingle(r[k], ',', j);
      }
    }
    r
  }

  /** The bar of an axis is filled after the last clause read as its left
      label. */
  lemma BarFollowsLastReading(text: string, k: nat, i: nat)
    requires k < |Axes|
    requires i < |Clauses(text)| && ReadsKey(Clauses(text)[i], Capitalize(Axes[k].left))
    requires forall j :: i < j < |Clauses(text)| ==> !ReadsKey(Clauses(text)[j], Capitalize(Axes[k].left))
    ensures GeneratePersonalityBars(text)[k]
         == RenderBar(Axes[k], FilledCells(ParseClause(Clauses(text)[i]).value.percent))
    ensures FilledOf(GeneratePersonalityBars(text)[k])
         == FilledCells(ParseClause(Clauses(text)[i]).value.percent)
  {
    ScoresLastWins(Clauses(text), Capitalize(Axes[k].left), i);
    BarOfScore(text, k);
  }

  /** With no clause read as its left label, an axis scores 0 and its bar
      is all empty cells. */
  lemma BarDefaultsToEmpty(text: string, k: nat)
    requires k < |Axes|
    requires forall j :: 0 <= j < |Clauses(text)| ==> !ReadsKey(Clauses(text)[j], Capitalize(Axes[k].left))
    ensures GeneratePersonalityBars(text)[k] == RenderBar(Axes[k], 0)
    ensures FilledOf(GeneratePersonalityBars(text)[k]) == 0
  {
    ScoresAbsent(Clauses(text), Capitalize(Axes[k].left));
    BarOfScore(text, k);
  }

  /** The bar of an axis shows its left label's score, rounded to cells. */
  lemma BarOfScore(text: string, k: nat)
    requires k < |Axes|
    ensures GeneratePersonalityBars(text)[k]
         == RenderBar(Axes[k], FilledCells(ScoreOf(Scores(Clauses(text)), Axes[k].left)))
    ensures FilledOf(GeneratePersonalityBars(text)[k])
         == FilledCells(ScoreOf(Scores(Clauses(text)), Axes[k].left))
  {
    AxesPlain(k);
  }

  /** The labels of the four axes are plain words. */
  lemma AxesPlain(k: nat)
    requires k < |Axes|
    ensures PlainAxis(Axes[k])
  {
    var axis := Axes[k];
    LettersHoldNoMark(axis.left);
    LettersHoldNoMark(axis.right);
  }

  /** A word of letters holds neither cell mark. */
  lemma LettersHoldNoMark(s: string)
    requires forall j :: 0 <= j < |s| ==> IsAsciiUpper(s[j]) || IsAsciiLower(s[j])
    ensures FilledMark !in s && EmptyMark !in s
  {
  }

  /** A further clause that is not read as any left label changes no bar. */
  lemma OtherClauseIgnored(text: string, clause: string)
    requires ',' !in clause
    requires forall k :: 0 <= k < |Axes| ==> !ReadsKey(clause, Capitalize(Axes[k].left))
    ensures GeneratePersonalityBars(text + "," + clause) == GeneratePersonalityBars(text)
  {
    SplitAppend(text, ',', clause);
    var before := SplitBy(text, ",");
    forall k | 0 <= k < |Axes|
      ensures ScoreOf(Scores(before + [clause]), Axes[k].left) == ScoreOf(Scores(before), Axes[k].left)
    {
      ScoresAppend(before, clause, Capitalize(Axes[k].left));
    }
    SameScoresSameBars(text + "," + clause, text);
  }

  /** Two texts whose clauses give every left label the same score give the
      same bars. */
  lemma SameScoresSameBars(a: string, b: string)
    requires forall k :: 0 <= k < |Axes| ==>
      ScoreOf(Scores(SplitBy(a, ",")), Axes[k].left) == ScoreOf(Scores(SplitBy(b, ",")), Axes[k].left)
    ensures GeneratePersonalityBars(a) == GeneratePersonalityBars(b)
  {
  }

  /** Only the left labels count: a percentage given for a right label,
      such as "70% Extroverted", changes no bar. */
  lemma RightLabelIgnored(text: string, clause: string, k: nat)
    requires k < |Axes|
    requires ',' !in clause && ReadsKey(clause, Capitalize(Axes[k].right))
    ensures GeneratePersonalityBars(text + "," + clause) == GeneratePersonalityBars(text)
  {
    forall l | 0 <= l < |Axes| ensures !ReadsKey(clause, Capitalize(Axes[l].left)) {
      KeysDiffer(k, l);
    }
    OtherClauseIgnored(text, clause);
  }

  /** No right label capitalizes to a left label: their initials differ. */
  lemma KeysDiffer(k: nat, l: nat)
    requires k < |Axes| && l < |Axes|
    ensures Capitalize(Axes[k].right) != Capitalize(Axes[l].left)
  {
    var right, left := Axes[k].right, Axes[l].left;
    assert right[0] in "ESTJ" && left[0] in "IFP";
    assert Capitalize(right)[0] == right[0];
    assert Capitalize(left)[0] == left[0];
  }

  /** The line "80% Introverted, 30% Intuitive" fills sixteen cells of the
      first bar and six of the second, and leaves the other two empty. */
  lemma TwoClauseExample()
    ensures GeneratePersonalityBars("80% Introverted, 30% Intuitive")[0] == RenderBar(Axes[0], 16)
    ensures GeneratePersonalityBars("80% Introverted, 30% Intuitive")[1] == RenderBar(Axes[1], 6)
    ensures GeneratePersonalityBars("80% Introverted, 30% Intuitive")[2] == RenderBar(Axes[2], 0)
    ensures GeneratePersonalityBars("80% Introverted, 30% Intuitive")[3] == RenderBar(Axes[3], 0)
  {
    var text := "80% Introverted, 30% Intuitive";
    var first, second := "80% Introverted", " 30% Intuitive";
    ExampleClauses(text, first, second);
    LeftKeys();
    ReadsIntroverted();
    ReadsIntuitive();
    ExampleFirstBar(text, first, second);
    ExampleSecondBar(text, first, second);
    assert |Capitalize("Introverted")| == 11 && |Capitalize("Intuitive")| == 9;
    ExampleEmptyBar(text, first, second, 2);
    ExampleEmptyBar(text, first, second, 3);
  }

  /** The example's first bar follows its first clause. */
  lemma ExampleFirstBar(text: string, first: string, second: string)
    requires Clauses(text) == [first, second]
    requires ParseClause(first) == Some(Reading("Introverted", 80))
    requires ParseClause(second) == Some(Reading("Intuitive", 30))
    requires Capitalize(Axes[0].left) == "Introverted" && Capitalize("Intuitive") == "Intuitive"
    ensures GeneratePersonalityBars(text)[0] == RenderBar(Axes[0], 16)
  {
    assert FilledCells(80) == 16;
    BarFollowsLastReading(text, 0, 0);
  }

  /** The example's second bar follows its second clause. */
  lemma ExampleSecondBar(text: string, first: string, second: string)
    requires Clauses(text) == [first, second]
    requires ParseClause(second) == Some(Reading("Intuitive", 30))
    requires Capitalize(Axes[1].left) == "Intuitive"
    ensures GeneratePersonalityBars(text)[1] == RenderBar(Axes[1], 6)
  {
    assert FilledCells(30) == 6;
    BarFollowsLastReading(text, 1, 1);
  }

  /** Neither example clause names the left label of the last two axes. */
  lemma ExampleEmptyBar(text: string, first: string, second: string, k: nat)
    requires k < |Axes|
    requires Clauses(text) == [first, second]
    requires ParseClause(first).Some? && ParseClause(second).Some?
    requires |Capitalize(ParseClause(first).value.word)| != |Capitalize(Axes[k].left)|
    requires |Capitalize(ParseClause(second).value.word)| != |Capitalize(Axes[k].left)|
    ensures GeneratePersonalityBars(text)[k] == RenderBar(Axes[k], 0)
  {
    BarDefaultsToEmpty(text, k);
  }

  lemma ExampleClauses(text: string, first: string, second: string)
    requires text == "80% Introverted, 30% Intuitive"
    requires first == "80% Introverted" && second == " 30% Intuitive"
    ensures Clauses(text) == [first, second]
  {
    assert text == first + [','] + second;
    assert ',' !in first && ',' !in second;
    SplitWithoutSeparator(first, ',');
    SplitAppend(first, ',', second);
  }

  /** The left labels are already capitalized. */
  lemma LeftKeys()
    ensures Capitalize(Axes[0].left) == "Introverted"
    ensures Capitalize(Axes[1].left) == "Intuitive"
    ensures Capitalize(Axes[2].left) == "Feeling"
    ensures Capitalize(Axes[3].left) == "Perceiving"
  {
    CapitalizeFixed("Introverted");
    CapitalizeFixed("Intuitive");
    CapitalizeFixed("Feeling");
    CapitalizeFixed("Perceiving");
  }

  lemma ReadsIntroverted()
    ensures ParseClause("80% Introverted") == Some(Reading("Introverted", 80))
  {
    ClauseText("", "80", "Introverted", "80% Introverted");
    var digits, word := "80", "Introverted";
    assert ClauseShape(digits, " ", word, []);
    assert DecimalValue(digits) == 80 by {
      assert digits[..1] == "8";
    }
    ParseClauseRoundTrip("", digits, " ", word, "");
  }

  lemma ReadsIntuitive()
    ensures ParseClause(" 30% Intuitive") == Some(Reading("Intuitive", 30))
  {
    ClauseText(" ", "30", "Intuitive", " 30% Intuitive");
    var digits, word := "30", "Intuitive";
    assert ClauseShape(digits, " ", word, []);
    assert DecimalValue(digits) == 30 by {
      assert digits[..1] == "3";
    }
    ParseClauseRoundTrip(" ", digits, " ", word, "");
  }

  /** The example clauses, cut into the pieces of the round trip. */
  lemma ClauseText(lead: string, digits: string, word: string, clause: string)
    requires lead + digits + "% " + word == clause
    ensures clause == lead + digits + "%" + " " + word + ""
  {
  }
}

=== FILE: chars.dfy ===
/** Character classes and case mapping used by the response parser.

    Python's `str.isspace`, the line boundaries of `str.splitlines` and the
    regex classes `\d` and `\w` are written out explicitly. Whitespace and
    line boundaries are given in full; digits, word characters and case
    mapping are restricted to ASCII. */
module Chars {

  /** The characters Python's `str.isspace()` accepts: U+0009 to U+000D,
      U+001C to U+0020, U+0085, U+00A0, U+1680, U+2000 to U+200A, U+2028,
      U+2029, U+202F, U+205F and U+3000. A bare `strip()` removes exactly
      these, and the regex class `\s` matches exactly these. */
  predicate IsSpace(c: char) {
    || '\t' <= c <= '\r'
    || '\U{1C}' <= c <= ' '
    || c == '\U{85}' || c == '\U{A0}' || c == '\U{1680}'
    || '\U{2000}' <= c <= '\U{200A}'
    || c == '\U{2028}' || c == '\U{2029}' || c == '\U{202F}' || c == '\U{205F}' || c == '\U{3000}'
  }

  /** The line boundaries of `str.splitlines()`: U+000A to U+000D, U+001C to
      U+001E, U+0085, U+2028 and U+2029. The pair "\r\n" also counts as a
      single boundary; that is handled where lines are split. */
  predicate IsLineBreak(c: char) {
    || '\n' <= c <= '\r'
    || '\U{1C}' <= c <= '\U{1E}'
    || c == '\U{85}' || c == '\U{2028}' || c == '\U{2029}'
  }

  /** Every line boundary is whitespace. */
  lemma LineBreakIsSpace(c: char)
    requires IsLineBreak(c)
    ensures IsSpace(c)
  {
  }

  /** The regex class `\d`, restricted to ASCII. */
  predicate IsDigit(c: char) {
    '0' <= c <= '9'
  }

  predicate IsAsciiUpper(c: char) {
    'A' <= c <= 'Z'
  }

  predicate IsAsciiLower(c: char) {
    'a' <= c <= 'z'
  }

  /** The regex class `\w`, restricted to ASCII. */
  predicate IsWordChar(c: char) {
    IsDigit(c) || IsAsciiUpper(c) || IsAsciiLower(c) || c == '_'
  }

  function ToUpper(c: char): char {
    if IsAsciiLower(c) then (c as int - 32) as char else c
  }

  function ToLower(c: char): char {
    if IsAsciiUpper(c) then (c as int + 32) as char else c
  }

  /** `str.upper()` */
  function Upper(s: string): string {
    seq(|s|, k requires 0 <= k < |s| => ToUpper(s[k]))
  }

  /** `str.lower()` */
  function Lower(s: string): string {
    seq(|s|, k requires 0 <= k < |s| => ToLower(s[k]))
  }

  /** `str.capitalize()`: the same word ignoring case, with the first
      character not in lower case and no later character in upper case. */
  function Capitalize(w: string): (r: string)
    ensures |r| == |w|
    ensures Lower(r) == Lower(w)
    ensures r != [] ==> !IsAsciiLower(r[0])
    ensures forall k :: 1 <= k < |r| ==> !IsAsciiUpper(r[k])
  {
    if w == [] then []
    else
      var r := [ToUpper(w[0])] + Lower(w[1..]);
      assert Lower(r) == Lower(w) by {
        forall k | 0 <= k < |r| ensures Lower(r)[k] == Lower(w)[k] {
          if k > 0 {
            assert r[k] == ToLower(w[k]);
          }
        }
      }
      r
  }

  /** Capitalizing is determined by its contract: a word that agrees with
      `w` ignoring case, starts out of lower case and goes on out of upper
      case is `Capitalize(w)`. */
  lemma CapitalizeUnique(w: string, r: string)
    requires |r| == |w| && Lower(r) == Lower(w)
    requires r != [] ==> !IsAsciiLower(r[0])
    requires forall k :: 1 <= k < |r| ==> !IsAsciiUpper(r[k])
    ensures r == Capitalize(w)
  {
    var c := Capitalize(w);
    forall k | 0 <= k < |r| ensures r[k] == c[k] {
      assert ToLower(r[k]) == Lower(r)[k] == Lower(c)[k] == ToLower(c[k]);
    }
  }

  /** Two characters agree after upper-casing exactly when they agree after
      lower-casing: both relate a letter to its other case and nothing else. */
  lemma CaseAgreement(a: char, b: char)
    ensures ToUpper(a) == ToUpper(b) <==> ToLower(a) == ToLower(b)
  {
  }

  /** Matching on a capitalized word ignores case: two words give the same
      capitalized key exactly when they are equal ignoring case. */
  lemma CapitalizeIgnoresCase(w: string, v: string)
    ensures Capitalize(w) == Capitalize(v) <==> Lower(w) == Lower(v)
  {
    if |w| == |v| && |w| > 0 {
      CaseAgreement(w[0], v[0]);
      var cw, cv := Capitalize(w), Capitalize(v);
      assert cw == [cw[0]] + cw[1..];
      assert cv == [cv[0]] + cv[1..];
      assert cw[1..] == cv[1..] <==> Lower(w[1..]) == Lower(v[1..]);
      assert Lower(w) == [ToLower(w[0])] + Lower(w[1..]);
      assert Lower(v) == [ToLower(v[0])] + Lower(v[1..]);
      assert cw == cv <==> cw[0] == cv[0] && cw[1..] == cv[1..];
      assert Lower(w) == Lower(v) <==> Lower(w)[0] == Lower(v)[0] && Lower(w)[1..] == Lower(v)[1..];
    } else if |w| != |v| {
      assert |Lower(w)| != |Lower(v)|;
    }
  }

  /** Capitalizing is idempotent: a capitalized word is its own key. */
  lemma CapitalizeIdempotent(w: string)
    ensures Capitalize(Capitalize(w)) == Capitalize(w)
  {
    if w != [] {
      var c := Capitalize(w);
      assert Lower(c[1..]) == c[1..];
    }
  }

  /** A word that already starts in upper case and goes on in lower case is
      left unchanged by capitalizing. */
  lemma CapitalizeFixed(w: string)
    requires w != [] && !IsAsciiLower(w[0])
    requires forall k :: 1 <= k < |w| ==> !IsAsciiUpper(w[k])
    ensures Capitalize(w) == w
  {
    CapitalizeUnique(w, w);
  }
}

=== FILE: lines.dfy ===
/** Python's `str.splitlines()`: cut a text at every line boundary, count
    "\r\n" as one boundary, and give no empty line after a final boundary. */
module Lines {
  import opened Chars
  import opened Search

  predicate NoLineBreak(line: string) {
    forall k :: 0 <= k < |line| ==> !IsLineBreak(line[k])
  }

  predicate NotLineBreak(c: char) {
    !IsLineBreak(c)
  }

  /** Where the line that starts `s` resumes after the boundary at `n`: one
      character on, or two for "\r\n". */
  function SkipBreak(s: string, n: nat): (next: nat)
    requires n < |s|
    ensures n < next <= |s|
  {
    if s[n] == '\r' && n + 1 < |s| && s[n + 1] == '\n' then n + 2 else n + 1
  }

  /** `s.splitlines()` */
  function SplitLines(s: string): (lines: seq<string>)
    ensures forall k :: 0 <= k < |lines| ==> NoLineBreak(lines[k])
    ensures |lines| == 0 <==> |s| == 0
    decreases |s|
  {
    if s == [] then []
    else
      var n := Span(s, NotLineBreak);
      if n == |s| then [s]
      else [s[..n]] + SplitLines(s[SkipBreak(s, n)..])
  }

  /** Lines without boundaries, joined with "\n", split back into the same
      lines, as long as the last one is not empty (a final empty line would
      leave a trailing "\n", which `splitlines` does not turn into a line). */
  lemma {:induction false} SplitJoinedLines(lines: seq<string>)
    requires forall k :: 0 <= k < |lines| ==> NoLineBreak(lines[k])
    requires lines == [] || lines[|lines| - 1] != []
    ensures SplitLines(Join(lines, "\n")) == lines
    decreases |lines|
  {
    if |lines| == 1 {
      SpanOf(lines[0], [], NotLineBreak);
      assert lines[0] + [] == lines[0];
    } else if |lines| > 1 {
      var first, rest := lines[0], Join(lines[1..], "\n");
      var s := first + "\n" + rest;
      assert s == first + ("\n" + rest);
      SpanOf(first, "\n" + rest, NotLineBreak);
      assert s[|first| + 1..] == rest;
      SplitJoinedLines(lines[1..]);
      assert SplitLines(s) == [first] + lines[1..];
    }
  }

  ghost predicate AllSpace(s: string) {
    forall k :: 0 <= k < |s| ==> IsSpace(s[k])
  }

  ghost predicate AllLinesSpace(lines: seq<string>) {
    forall j :: 0 <= j < |lines| ==> AllSpace(lines[j])
  }

  lemma AllLinesSpaceCons(first: string, rest: seq<string>)
    ensures AllLinesSpace([first] + rest) <==> AllSpace(first) && AllLinesSpace(rest)
  {
    var lines := [first] + rest;
    assert lines[0] == first;
    assert forall j :: 0 <= j < |rest| ==> lines[j + 1] == rest[j];
  }

  /** A line boundary, one character or "\r\n", is whitespace. */
  lemma BreakIsSpace(s: string, n: nat)
    requires n < |s| && IsLineBreak(s[n])
    ensures AllSpace(s[n..SkipBreak(s, n)])
  {
    LineBreakIsSpace(s[n]);
    assert IsSpace('\n');
  }

  /** A text is whitespace exactly when each of three consecutive pieces
      is. */
  lemma AllSpaceThree(s: string, n: nat, next: nat)
    requires n <= next <= |s|
    ensures AllSpace(s) <==> AllSpace(s[..n]) && AllSpace(s[n..next]) && AllSpace(s[next..])
  {
    if AllSpace(s[..n]) && AllSpace(s[n..next]) && AllSpace(s[next..]) {
      forall k | 0 <= k < |s| ensures IsSpace(s[k]) {
        if k < n {
          assert s[k] == s[..n][k];
        } else if k < next {
          assert s[k] == s[n..next][k - n];
        } else {
          assert s[k] == s[next..][k - next];
        }
      }
    }
  }

  /** Every character of the text is whitespace exactly when every line is
      whitespace only: the boundaries themselves are whitespace. */
  lemma {:induction false} AllSpaceLines(s: string)
    ensures AllSpace(s) <==> AllLinesSpace(SplitLines(s))
    decreases |s|
  {
    if s != [] {
      var n := Span(s, NotLineBreak);
      if n < |s| {
        var next := SkipBreak(s, n);
        var tail := s[next..];
        assert SplitLines(s) == [s[..n]] + SplitLines(tail);
        AllSpaceLines(tail);
        AllLinesSpaceCons(s[..n], SplitLines(tail));
        BreakIsSpace(s, n);
        AllSpaceThree(s, n, next);
      } else {
        assert SplitLines(s) == [s];
        AllLinesSpaceCons(s, []);
      }
    }
  }
}

=== FILE: lists.dfy ===
/** The line-by-line extractors: `extract_bullet_list` and
    `extract_key_value_pairs`. Both cut a section into lines with
    `splitlines` and clean each line of bullet marks. */
module Lists {
  import opened Chars
  import opened Trim
  import opened Search
  import opened Lines

  /** The characters of `strip("•- ")`. */
  predicate IsBulletMark(c: char) {
    c == '•' || c == '-' || c == ' '
  }

  predicate IsCloseParen(c: char) {
    c == ')'
  }

  /** `line.strip("•- ").strip()` */
  function CleanLine(line: string): (r: string)
    ensures Trimmed(r, IsSpace)
  {
    StripSpace(Strip(line, IsBulletMark))
  }

  /** The truth test `if line.strip()`: a line has content exactly when it
      is not all whitespace. */
  predicate HasContent(line: string): (b: bool)
    ensures b <==> !AllSpace(line)
  {
    StripEmptyIff(line, IsSpace);
    StripSpace(line) != []
  }

  /** A line whose content is `item`, behind any run of bullet marks, cleans
      to `item`. */
  lemma CleanBulletLine(marks: string, item: string)
    requires forall k :: 0 <= k < |marks| ==> IsBulletMark(marks[k])
    requires Trimmed(item, IsBulletMark) && Trimmed(item, IsSpace)
    ensures CleanLine(marks + item) == item
  {
    StripPadded(marks, item, [], IsBulletMark);
    assert marks + item + [] == marks + item;
    StripTrimmed(item, IsSpace);
  }

  /** The cleaned lines that have content, in order. */
  function BulletItems(lines: seq<string>): (r: seq<string>)
    ensures |r| <= |lines|
    ensures forall k :: 0 <= k < |r| ==> Trimmed(r[k], IsSpace)
  {
    if lines == [] then []
    else
      var rest := BulletItems(lines[1..]);
      if !HasContent(lines[0]) then rest else [CleanLine(lines[0])] + rest
  }

  /** `extract_bullet_list(section_text)`: every entry is trimmed. */
  function ExtractBulletList(section: string): (r: seq<string>)
    ensures forall k :: 0 <= k < |r| ==> Trimmed(r[k], IsSpace)
    ensures |r| <= |SplitLines(section)|
  {
    BulletItems(SplitLines(section))
  }

  /** No entries exactly when no line has content. */
  lemma {:induction false} BulletItemsEmptyIff(lines: seq<string>)
    ensures BulletItems(lines) == [] <==> AllLinesSpace(lines)
  {
    if lines != [] {
      assert lines == [lines[0]] + lines[1..];
      var rest := BulletItems(lines[1..]);
      assert BulletItems(lines) == if HasContent(lines[0]) then [CleanLine(lines[0])] + rest else rest;
      BulletItemsEmptyIff(lines[1..]);
      AllLinesSpaceCons(lines[0], lines[1..]);
    }
  }

  /** The list is empty exactly when the section is all whitespace. */
  lemma BulletListEmptyIff(section: string)
    ensures ExtractBulletList(section) == [] <==> AllSpace(section)
  {
    BulletItemsEmptyIff(SplitLines(section));
    AllSpaceLines(section);
  }

  /** An entry that is already clean: not blank, no line break, and neither
      end a bullet mark or whitespace. */
  predicate CleanEntry(item: string) {
    && item != []
    && NoLineBreak(item)
    && Trimmed(item, IsBulletMark)
    && Trimmed(item, IsSpace)
  }

  /** Lines that are already clean come through unchanged. */
  lemma {:induction false} BulletItemsOfClean(items: seq<string>)
    requires forall k :: 0 <= k < |items| ==> CleanEntry(items[k])
    ensures BulletItems(items) == items
  {
    if items != [] {
      var item := items[0];
      assert items == [item] + items[1..];
      assert CleanLine(item) == item by {
        CleanBulletLine([], item);
        assert [] + item == item;
      }
      assert HasContent(item) by {
        StripTrimmed(item, IsSpace);
      }
      assert BulletItems(items) == [item] + BulletItems(items[1..]);
      BulletItemsOfClean(items[1..]);
    }
  }

  /** Round trip: clean entries written one per line come back as the same
      list. */
  lemma BulletListRoundTrip(items: seq<string>)
    requires forall k :: 0 <= k < |items| ==> CleanEntry(items[k])
    ensures ExtractBulletList(Join(items, "\n")) == items
  {
    SplitJoinedLines(items);
    BulletItemsOfClean(items);
  }

  /** One line gives its cleaned text when it has content, and nothing
      when it is blank. */
  lemma BulletItemsSingle(line: string)
    ensures BulletItems([line]) == if HasContent(line) then [CleanLine(line)] else []
  {
    assert [line][1..] == [];
  }

  /** The entries of two runs of lines are the entries of the first run
      followed by those of the second: lines are read one at a time, in
      order. */
  lemma {:induction false} BulletItemsAppend(a: seq<string>, b: seq<string>)
    ensures BulletItems(a + b) == BulletItems(a) + BulletItems(b)
    decreases |a|
  {
    if a == [] {
      assert a + b == b;
    } else {
      assert (a + b)[0] == a[0];
      assert (a + b)[1..] == a[1..] + b;
      BulletItemsAppend(a[1..], b);
    }
  }

  /** Runs of bullet marks: '•', '-' and spaces. */
  predicate BulletMarks(marks: string) {
    forall k :: 0 <= k < |marks| ==> IsBulletMark(marks[k])
  }

  /** The lines that write each entry behind its own run of bullet marks. */
  function MarkedLines(marks: seq<string>, items: seq<string>): (lines: seq<string>)
    requires |marks| == |items|
    ensures |lines| == |items|
    decreases |items|
  {
    if items == [] then [] else [marks[0] + items[0]] + MarkedLines(marks[1..], items[1..])
  }

  /** Line `k` is entry `k` behind its marks. */
  lemma {:induction false} MarkedLineAt(marks: seq<string>, items: seq<string>, k: nat)
    requires |marks| == |items| && k < |items|
    ensures MarkedLines(marks, items)[k] == marks[k] + items[k]
    decreases k
  {
    if k > 0 {
      MarkedLineAt(marks[1..], items[1..], k - 1);
    }
  }

  /** A clean entry behind bullet marks is a line with content that cleans
      to the entry. */
  lemma MarkedLineCleans(marks: string, item: string)
    requires BulletMarks(marks) && CleanEntry(item)
    ensures HasContent(marks + item) && CleanLine(marks + item) == item
  {
    var line := marks + item;
    CleanBulletLine(marks, item);
    assert line[|marks|] == item[0];
  }

  /** Lines that all have content come back cleaned, one entry per line
      and in order. */
  lemma {:induction false} BulletItemsOfContent(lines: seq<string>, items: seq<string>)
    requires |lines| == |items|
    requires forall k :: 0 <= k < |lines| ==> HasContent(lines[k]) && CleanLine(lines[k]) == items[k]
    ensures BulletItems(lines) == items
    decreases |lines|
  {
    if lines != [] {
      BulletItemsOfContent(lines[1..], items[1..]);
      assert items == [items[0]] + items[1..];
    }
  }

  /** Clean entries behind bullet marks come back without the marks, one
      per line and in order. */
  lemma BulletItemsOfMarked(marks: seq<string>, items: seq<string>)
    requires |marks| == |items|
    requires forall k :: 0 <= k < |items| ==> BulletMarks(marks[k]) && CleanEntry(items[k])
    ensures BulletItems(MarkedLines(marks, items)) == items
  {
    var lines := MarkedLines(marks, items);
    forall k | 0 <= k < |lines| ensures HasContent(lines[k]) && CleanLine(lines[k]) == items[k] {
      MarkedLineAt(marks, items, k);
      MarkedLineCleans(marks[k], items[k]);
    }
    BulletItemsOfContent(lines, items);
  }

  /** Round trip with bullets: entries written one per line, each behind
      any run of '•', '-' and spaces, come back as the same list. */
  lemma BulletListMarkedRoundTrip(marks: seq<string>, items: seq<string>)
    requires |marks| == |items|
    requires forall k :: 0 <= k < |items| ==> BulletMarks(marks[k]) && CleanEntry(items[k])
    ensures ExtractBulletList(Join(MarkedLines(marks, items), "\n")) == items
  {
    var lines := MarkedLines(marks, items);
    forall k | 0 <= k < |lines| ensures NoLineBreak(lines[k]) {
      MarkedLineAt(marks, items, k);
      forall j | 0 <= j < |lines[k]| ensures !IsLineBreak(lines[k][j]) {
        if j >= |marks[k]| {
          assert lines[k][j] == items[k][j - |marks[k]|];
        }
      }
    }
    if lines != [] {
      var n := |lines| - 1;
      MarkedLineAt(marks, items, n);
      assert |lines[n]| >= |items[n]| > 0;
    }
    SplitJoinedLines(lines);
    BulletItemsOfMarked(marks, items);
  }

  /** "- Wants approval", "• Wants approval" and "Wants approval" give the
      same entry. */
  lemma BulletMarksIgnored()
    ensures CleanLine("- " + "Wants approval") == "Wants approval"
    ensures CleanLine("• " + "Wants approval") == "Wants approval"
    ensures CleanLine("" + "Wants approval") == "Wants approval"
  {
    var item := "Wants approval";
    assert item[0] == 'W' && item[|item| - 1] == 'l';
    CleanBulletLine("- ", item);
    CleanBulletLine("• ", item);
    CleanBulletLine("", item);
  }

  /** A bare "-" has content but cleans to the empty entry. */
  lemma DashOnlyGivesEmpty()
    ensures HasContent("-") && CleanLine("-") == ""
  {
    assert !IsSpace('-');
    StripEmptyIff("-", IsSpace);
    StripEmptyIff("-", IsBulletMark);
  }

  /** One parsed key-value entry: `(key, detail)`. */
  datatype Item = Item(key: string, detail: string)

  /** `i` is the index of the last "(" in `line`. */
  predicate LastParen(line: string, i: nat) {
    i < |line| && line[i] == '(' && forall j :: i < j < |line| ==> line[j] != '('
  }

  /** `LastParen` singles out the index `LastIndexOf` finds. */
  lemma LastParenIsLastIndex(line: string, i: nat)
    requires LastParen(line, i)
    ensures '(' in line && LastIndexOf(line, '(') == i
  {
    var last := LastIndexOf(line, '(');
    assert !(last < i) && !(i < last);
  }

  /** `rsplit("(", 1)` at the last "(", then the key stripped of whitespace
      and the detail stripped of ")". */
  function SplitAtParen(line: string, i: nat): (r: Item)
    requires LastParen(line, i)
    ensures Trimmed(r.key, IsSpace)
    ensures Trimmed(r.detail, IsCloseParen)
    ensures '(' !in r.detail
  {
    var rest := line[i + 1..];
    assert '(' !in rest by {
      assert forall k :: 0 <= k < |rest| ==> rest[k] == line[i + 1 + k];
    }
    StripSubset(rest, IsCloseParen);
    Item(StripSpace(line[..i]), Strip(rest, IsCloseParen))
  }

  /** One line of `extract_key_value_pairs`: after cleaning, a line holding
      both "(" and ")" anywhere splits at its last "("; any other line is
      the key alone, with an empty detail. */
  function SplitItem(raw: string): (r: Item)
    ensures Trimmed(r.key, IsSpace)
    ensures Trimmed(r.detail, IsCloseParen)
    ensures '(' !in r.detail
  {
    var line := CleanLine(raw);
    if '(' in line && ')' in line then SplitAtParen(line, LastIndexOf(line, '('))
    else Item(line, "")
  }

  /** A line without both brackets is the key alone, with no detail. */
  lemma SplitItemPlain(raw: string)
    requires '(' !in CleanLine(raw) || ')' !in CleanLine(raw)
    ensures SplitItem(raw) == Item(CleanLine(raw), "")
  {
  }

  /** A line holding a ")" anywhere splits at its last "(": the key is the
      text before it, trimmed of whitespace, and the detail is the text after
      it with its outer ")" removed. The ")" may come before that "(". */
  lemma SplitItemAtLastParen(raw: string, i: nat)
    requires LastParen(CleanLine(raw), i) && ')' in CleanLine(raw)
    ensures SplitItem(raw) == Item(StripSpace(CleanLine(raw)[..i]), Strip(CleanLine(raw)[i + 1..], IsCloseParen))
  {
    LastParenIsLastIndex(CleanLine(raw), i);
  }

  /** A trimmed key followed by the space before its "(" strips back to
      the key. */
  lemma KeyBeforeParen(key: string)
    requires Trimmed(key, IsSpace)
    ensures StripSpace(key + " ") == key
  {
    StripPadded([], key, " ", IsSpace);
    assert [] + key + " " == key + " ";
  }

  /** `SplitItemAtLastParen`, with the text before and after the "(" given
      as pieces. */
  lemma SplitItemAt(raw: string, i: nat, before: string, after: string)
    requires LastParen(CleanLine(raw), i) && ')' in CleanLine(raw)
    requires CleanLine(raw)[..i] == before && CleanLine(raw)[i + 1..] == after
    ensures SplitItem(raw) == Item(StripSpace(before), Strip(after, IsCloseParen))
  {
    SplitItemAtLastParen(raw, i);
  }

  /** A line `key (detail` that starts with the key and ends with the
      detail's last character is unchanged by the cleaning. */
  lemma UnclosedLineIsClean(key: string, detail: string)
    requires key != [] && !IsSpace(key[0]) && !IsBulletMark(key[0])
    requires detail != [] && !IsSpace(detail[|detail| - 1]) && !IsBulletMark(detail[|detail| - 1])
    ensures CleanLine(key + " (" + detail) == key + " (" + detail
  {
    var line := key + " (" + detail;
    assert line[0] == key[0];
    assert line[|line| - 1] == detail[|detail| - 1];
    CleanBulletLine([], line);
    assert [] + line == line;
  }

  /** In `key (detail`, with no "(" in the detail, the "(" after the key is
      the last one. */
  lemma UnclosedLineLastParen(key: string, detail: string)
    requires '(' !in detail
    ensures LastParen(key + " (" + detail, |key| + 1)
  {
    var line := key + " (" + detail;
    var i := |key| + 1;
    forall j | i < j < |line| ensures line[j] != '(' {
      assert line[j] == detail[j - i - 1];
    }
  }

  /** A line `key (detail` without a closing bracket, whose key holds a
      ")", still splits at its last "(" into the key and the detail. */
  lemma UnclosedLineSplits(key: string, detail: string)
    requires key != [] && !IsBulletMark(key[0]) && Trimmed(key, IsSpace) && ')' in key
    requires detail != [] && '(' !in detail && Trimmed(detail, IsCloseParen)
    requires !IsBulletMark(detail[|detail| - 1]) && !IsSpace(detail[|detail| - 1])
    ensures SplitItem(key + " (" + detail) == Item(key, detail)
  {
    var line := key + " (" + detail;
    var i := |key| + 1;
    assert line[..i] == key + " ";
    assert line[i + 1..] == detail;
    assert ')' in line by {
      var k :| 0 <= k < |key| && key[k] == ')';
      assert line[k] == ')';
    }
    UnclosedLineIsClean(key, detail);
    UnclosedLineLastParen(key, detail);
    KeyBeforeParen(key);
    StripTrimmed(detail, IsCloseParen);
    SplitItemAt(line, i, key + " ", detail);
  }

  /** Example: in "x) y (z" the ")" comes before the last "(", and the line
      still splits there, into the key "x) y" and the detail "z". */
  lemma CloseBeforeParenExample()
    ensures SplitItem("x) y" + " (" + "z") == Item("x) y", "z")
  {
    var key, detail := "x) y", "z";
    assert key[0] == 'x' && key[|key| - 1] == 'y' && key[1] == ')';
    UnclosedLineSplits(key, detail);
  }

  /** A blank line gives the empty pair. */
  lemma SplitItemBlank(raw: string)
    requires forall k :: 0 <= k < |raw| ==> IsSpace(raw[k])
    ensures SplitItem(raw) == Item("", "")
  {
    var s := Strip(raw, IsBulletMark);
    var a, b := StripIsSlice(raw, IsBulletMark);
    assert forall k :: 0 <= k < |s| ==> s[k] == raw[a + k];
    StripEmptyIff(s, IsSpace);
  }

  /** How a pair is written on one line: `key (detail)`. */
  function ItemLine(it: Item): string {
    it.key + " (" + it.detail + ")"
  }

  /** A pair the line parser can give back: a non-empty key that neither
      begins nor ends with whitespace and does not begin with a bullet mark,
      a detail without "(" or a ")" at either end, and no line break. */
  predicate Writable(it: Item) {
    && it.key != []
    && Trimmed(it.key, IsSpace)
    && !IsBulletMark(it.key[0])
    && '(' !in it.detail
    && Trimmed(it.detail, IsCloseParen)
    && NoLineBreak(it.key)
    && NoLineBreak(it.detail)
  }

  /** A run of one or more ")". */
  predicate Closers(c: string) {
    |c| > 0 && forall k :: 0 <= k < |c| ==> c[k] == ')'
  }

  /** A written line is already clean. */
  lemma WrittenLineIsClean(key: string, detail: string, closers: string)
    requires key != [] && !IsSpace(key[0]) && !IsBulletMark(key[0])
    requires Closers(closers)
    ensures CleanLine(key + " (" + detail + closers) == key + " (" + detail + closers
  {
    var line := key + " (" + detail + closers;
    assert line[0] == key[0];
    assert line[|line| - 1] == closers[|closers| - 1];
    CleanBulletLine([], line);
    assert [] + line == line;
  }

  /** In a written line the last "(" is the one before the detail. */
  lemma WrittenLineLastParen(key: string, detail: string, closers: string)
    requires '(' !in detail && Closers(closers)
    ensures LastParen(key + " (" + detail + closers, |key| + 1)
  {
    var line := key + " (" + detail + closers;
    var i := |key| + 1;
    forall j | i < j < |line| ensures line[j] != '(' {
      if j < i + 1 + |detail| {
        assert line[j] == detail[j - i - 1];
      } else {
        assert line[j] == closers[j - i - 1 - |detail|];
      }
    }
  }

  /** Splitting a written line at that "(" gives back the pair. */
  lemma WrittenLineSplits(key: string, detail: string, closers: string)
    requires Trimmed(key, IsSpace) && Trimmed(detail, IsCloseParen)
    requires Closers(closers)
    requires LastParen(key + " (" + detail + closers, |key| + 1)
    ensures SplitAtParen(key + " (" + detail + closers, |key| + 1) == Item(key, detail)
  {
    var line := key + " (" + detail + closers;
    var i := |key| + 1;
    assert line[..i] == key + " ";
    assert line[i + 1..] == detail + closers;
    KeyBeforeParen(key);
    assert Strip(detail + closers, IsCloseParen) == detail by {
      StripPadded([], detail, closers, IsCloseParen);
      assert [] + detail + closers == detail + closers;
    }
  }

  /** A line written as `key (detail)))` splits back into the pair. */
  lemma WrittenLineRoundTrip(key: string, detail: string, closers: string)
    requires key != [] && !IsBulletMark(key[0]) && Trimmed(key, IsSpace)
    requires '(' !in detail && Trimmed(detail, IsCloseParen)
    requires Closers(closers)
    ensures SplitItem(key + " (" + detail + closers) == Item(key, detail)
  {
    var line := key + " (" + detail + closers;
    WrittenLineIsClean(key, detail, closers);
    WrittenLineLastParen(key, detail, closers);
    assert line[|line| - 1] == ')';
    LastParenIsLastIndex(line, |key| + 1);
    WrittenLineSplits(key, detail, closers);
  }

  /** Round trip for one line, with any positive number of closing
      brackets: `key (detail)))` gives `(key, detail)`. */
  lemma SplitItemRoundTrip(it: Item, closers: string)
    requires Writable(it)
    requires Closers(closers)
    ensures SplitItem(it.key + " (" + it.detail + closers) == it
  {
    WrittenLineRoundTrip(it.key, it.detail, closers);
  }

  /** A written line holds no line break. */
  lemma ItemLineNoBreak(it: Item)
    requires NoLineBreak(it.key) && NoLineBreak(it.detail)
    ensures NoLineBreak(ItemLine(it))
  {
    var l := ItemLine(it);
    forall j | 0 <= j < |l| ensures !IsLineBreak(l[j]) {
      if j < |it.key| {
        assert l[j] == it.key[j];
      } else if |it.key| + 2 <= j < |it.key| + 2 + |it.detail| {
        assert l[j] == it.detail[j - |it.key| - 2];
      }
    }
  }

  /** `extract_key_value_pairs(section_text)`: exactly one pair per line,
      blank lines included, so an empty section gives no pairs. */
  function ExtractKeyValuePairs(section: string): (r: seq<Item>)
    ensures |r| == |SplitLines(section)|
    ensures r == [] <==> section == []
  {
    var lines := SplitLines(section);
    seq(|lines|, k requires 0 <= k < |lines| => SplitItem(lines[k]))
  }

  /** The written lines of a list of pairs. */
  function ItemLines(items: seq<Item>): (lines: seq<string>)
    ensures |lines| == |items|
  {
    seq(|items|, k requires 0 <= k < |items| => ItemLine(items[k]))
  }

  /** Round trip: pairs written one per line as `key (detail)` come back
      as the same pairs. */
  lemma KeyValueRoundTrip(items: seq<Item>)
    requires forall k :: 0 <= k < |items| ==> Writable(items[k])
    ensures ExtractKeyValuePairs(Join(ItemLines(items), "\n")) == items
  {
    var lines := ItemLines(items);
    forall k | 0 <= k < |lines| ensures NoLineBreak(lines[k]) && SplitItem(lines[k]) == items[k] {
      ItemLineNoBreak(items[k]);
      SplitItemRoundTrip(items[k], ")");
    }
    SplitJoinedLines(lines);
  }

  /** The nested-bracket example: the split is at the last "(" and every
      trailing ")" leaves the detail. */
  lemma NestedBracketExample()
    ensures SplitItem("Fear of failure (seen in repeated self-doubt" + " (" + "noted twice" + "))")
         == Item("Fear of failure (seen in repeated self-doubt", "noted twice")
  {
    var key, detail := "Fear of failure (seen in repeated self-doubt", "noted twice";
    assert key[0] == 'F' && key[|key| - 1] == 't';
    assert detail[0] == 'n' && detail[|detail| - 1] == 'e';
    assert '(' !in detail;
    assert Closers("))");
    WrittenLineRoundTrip(key, detail, "))");
  }
}

=== FILE: options.dfy ===
/** The optional value used wherever the parser may find nothing: a regex
    that does not match, a substring that does not occur, a URL that is
    refused. */
module Options {

  datatype Option<+T> = None | Some(value: T)
}

=== FILE: persona.dfy ===
/** `parse_llm_response`: the model's answer, read heading by heading into
    the fields of a persona. */
module Persona {
  import opened Options
  import opened Chars
  import opened Trim
  import opened Search
  import opened Lines
  import opened Section
  import opened Lists
  import opened Bars

  /** The persona read from one answer. The three lists of pairs hold an
      entry and the evidence in brackets behind it; the goals are plain
      entries; the scalar fields hold the stripped text of their section. */
  datatype Persona = Persona(
    motivations: seq<Item>,
    frustrations: seq<Item>,
    behaviors: seq<Item>,
    goals: seq<string>,
    quote: string,
    age: string,
    occupation: string,
    status: string,
    location: string,
    archetype: string,
    personalityBars: seq<string>)

  /** The character of `strip('"')`. */
  predicate IsQuoteMark(c: char) {
    c == '"'
  }

  /** `parse_llm_response(response_text)`. Every scalar field is trimmed
      and stops before the next bold line, the quote has no surrounding
      double quotes, and there is one bar per axis. */
  function ParseResponse(response: string): (p: Persona)
    ensures Trimmed(p.quote, IsQuoteMark)
    ensures Trimmed(p.age, IsSpace) && !Contains(p.age, NextHeading)
    ensures Trimmed(p.occupation, IsSpace) && !Contains(p.occupation, NextHeading)
    ensures Trimmed(p.status, IsSpace) && !Contains(p.status, NextHeading)
    ensures Trimmed(p.location, IsSpace) && !Contains(p.location, NextHeading)
    ensures Trimmed(p.archetype, IsSpace) && !Contains(p.archetype, NextHeading)
    ensures forall k :: 0 <= k < |p.goals| ==> Trimmed(p.goals[k], IsSpace)
    ensures |p.personalityBars| == |Axes|
  {
    Persona(
      ExtractKeyValuePairs(ExtractSection(response, "Motivations")),
      ExtractKeyValuePairs(ExtractSection(response, "Frustrations")),
      ExtractKeyValuePairs(ExtractSection(response, "Behavioral habits")),
      ExtractBulletList(ExtractSection(response, "Goals and needs")),
      Strip(ExtractSection(response, "Short quote"), IsQuoteMark),
      ExtractSection(response, "Age"),
      ExtractSection(response, "Occupation"),
      ExtractSection(response, "Status"),
      ExtractSection(response, "Location"),
      ExtractSection(response, "Archetype"),
      GeneratePersonalityBars(ExtractSection(response, "Personality")))
  }

  /** Every bar drawn with nothing filled. */
  function ZeroBars(): (bars: seq<string>)
    ensures |bars| == |Axes|
    ensures forall k :: 0 <= k < |bars| ==> FilledOf(bars[k]) == 0
  {
    var bars := seq(|Axes|, k requires 0 <= k < |Axes| => RenderBar(Axes[k], 0));
    forall k | 0 <= k < |bars| ensures FilledOf(bars[k]) == 0 {
      AxesPlain(k);
    }
    bars
  }

  /** The persona of an answer that has none of the sections: no entries,
      empty fields and empty bars. */
  function EmptyPersona(): Persona {
    Persona([], [], [], [], "", "", "", "", "", "", ZeroBars())
  }

  /** The heading's marker `**heading:**` occurs nowhere in the text. */
  ghost predicate NoMarker(text: string, heading: string) {
    forall j :: !OccursAt(text, Marker(heading), j)
  }

  /** None of the eleven headings the answer is read for has its marker in
      the text. */
  ghost predicate NoMarkers(text: string) {
    && NoMarker(text, "Motivations")
    && NoMarker(text, "Frustrations")
    && NoMarker(text, "Behavioral habits")
    && NoMarker(text, "Goals and needs")
    && NoMarker(text, "Short quote")
    && NoMarker(text, "Age")
    && NoMarker(text, "Occupation")
    && NoMarker(text, "Status")
    && NoMarker(text, "Location")
    && NoMarker(text, "Archetype")
    && NoMarker(text, "Personality")
  }

  /** Every marker starts with '*', so a text without one holds no marker. */
  lemma NoStarNoMarker(text: string, heading: string)
    requires '*' !in text
    ensures NoMarker(text, heading)
  {
    var m := Marker(heading);
    forall j | 0 <= j && j + |m| <= |text| ensures !OccursAt(text, m, j) {
      assert text[j] in text;
      assert text[j..j + |m|][0] == text[j] != '*' == m[0];
    }
  }

  /** An empty personality line fills no bar. */
  lemma EmptyLineZeroBars()
    ensures GeneratePersonalityBars("") == ZeroBars()
  {
    SplitWithoutSeparator("", ',');
    assert Clauses("") == [""];
    assert ParseClause("") == None by {
      StripTrimmed("", IsSpace);
    }
    forall k | 0 <= k < |Axes| ensures GeneratePersonalityBars("")[k] == RenderBar(Axes[k], 0) {
      BarDefaultsToEmpty("", k);
    }
  }

  /** An answer that holds none of the eleven heading markers is read as
      the empty persona: no entries, empty fields and empty bars. */
  lemma NoMarkerEmptyPersona(response: string)
    requires NoMarkers(response)
    ensures ParseResponse(response) == EmptyPersona()
  {
    SectionAbsent(response, "Motivations");
    SectionAbsent(response, "Frustrations");
    SectionAbsent(response, "Behavioral habits");
    SectionAbsent(response, "Goals and needs");
    SectionAbsent(response, "Short quote");
    SectionAbsent(response, "Age");
    SectionAbsent(response, "Occupation");
    SectionAbsent(response, "Status");
    SectionAbsent(response, "Location");
    SectionAbsent(response, "Archetype");
    SectionAbsent(response, "Personality");
    EmptySectionsEmptyPersona(response);
  }

  /** An answer whose eleven sections are all empty is read as the empty
      persona. */
  lemma EmptySectionsEmptyPersona(response: string)
    requires ExtractSection(response, "Motivations") == ""
    requires ExtractSection(response, "Frustrations") == ""
    requires ExtractSection(response, "Behavioral habits") == ""
    requires ExtractSection(response, "Goals and needs") == ""
    requires ExtractSection(response, "Short quote") == ""
    requires ExtractSection(response, "Age") == ""
    requires ExtractSection(response, "Occupation") == ""
    requires ExtractSection(response, "Status") == ""
    requires ExtractSection(response, "Location") == ""
    requires ExtractSection(response, "Archetype") == ""
    requires ExtractSection(response, "Personality") == ""
    ensures ParseResponse(response) == EmptyPersona()
  {
    BulletListEmptyIff("");
    StripTrimmed("", IsQuoteMark);
    EmptyLineZeroBars();
  }

  /** An answer without a single '*' holds none of the markers, so it is
      read as the empty persona. */
  lemma NoStarEmptyPersona(response: string)
    requires '*' !in response
    ensures ParseResponse(response) == EmptyPersona()
  {
    NoStarNoMarker(response, "Motivations");
    NoStarNoMarker(response, "Frustrations");
    NoStarNoMarker(response, "Behavioral habits");
    NoStarNoMarker(response, "Goals and needs");
    NoStarNoMarker(response, "Short quote");
    NoStarNoMarker(response, "Age");
    NoStarNoMarker(response, "Occupation");
    NoStarNoMarker(response, "Status");
    NoStarNoMarker(response, "Location");
    NoStarNoMarker(response, "Archetype");
    NoStarNoMarker(response, "Personality");
    NoMarkerEmptyPersona(response);
  }

  /** The text a failed model call returns in place of an answer. */
  function ErrorResponse(error: string): (r: string)
    ensures |r| == |error| + 22 && r[21..|r| - 1] == error
    ensures r[0] == '[' && r[|r| - 1] == ']'
    ensures '*' in r <==> '*' in error
  {
    var prefix := "[Error querying LLM: ";
    assert '*' !in prefix;
    assert prefix + error + "]" == prefix + (error + "]");
    prefix + error + "]"
  }

  /** A failed model call, whose message has no '*', gives the empty
      persona rather than an error. */
  lemma ErrorGivesEmptyPersona(error: string)
    requires '*' !in error
    ensures ParseResponse(ErrorResponse(error)) == EmptyPersona()
  {
    NoStarEmptyPersona(ErrorResponse(error));
  }

  /** Round trip for the quote: a quote written in double quotes after its
      heading comes back without them. */
  lemma QuoteRoundTrip(pre: string, sep: string, q: string, tail: string)
    requires forall j :: 0 <= j < |pre| ==> !OccursAt(pre + Marker("Short quote"), Marker("Short quote"), j)
    requires forall k :: 0 <= k < |sep| ==> IsSpace(sep[k])
    requires Trimmed(q, IsQuoteMark) && '\n' !in q
    requires tail == [] || (|tail| >= 3 && tail[..3] == NextHeading)
    ensures ParseResponse(pre + Marker("Short quote") + sep + ("\"" + q + "\"") + tail).quote == q
  {
    var body := "\"" + q + "\"";
    assert body[0] == '"' && body[|body| - 1] == '"';
    assert '\n' !in body by {
      assert forall k :: 1 <= k < |body| - 1 ==> body[k] == q[k - 1];
    }
    NoNewlineNoHeading(body);
    SectionRoundTrip(pre, "Short quote", sep, body, tail);
    QuoteMarksStripped(q);
  }

  /** Stripping the double quotes around a quote gives back the quote. */
  lemma QuoteMarksStripped(q: string)
    requires Trimmed(q, IsQuoteMark)
    ensures Strip("\"" + q + "\"", IsQuoteMark) == q
  {
    StripPadded("\"", q, "\"", IsQuoteMark);
  }

  /** The headings of the five fields that hold their section's text as it
      is. */
  predicate IsScalarHeading(heading: string) {
    heading in {"Age", "Occupation", "Status", "Location", "Archetype"}
  }

  /** The field a scalar heading fills. */
  function ScalarField(p: Persona, heading: string): string
    requires IsScalarHeading(heading)
  {
    match heading
    case "Age" => p.age
    case "Occupation" => p.occupation
    case "Status" => p.status
    case "Location" => p.location
    case _ => p.archetype
  }

  /** Round trip for a scalar field: a trimmed value without a line break,
      written after its heading, comes back as the field. */
  lemma ScalarRoundTrip(pre: string, heading: string, sep: string, value: string, tail: string)
    requires IsScalarHeading(heading)
    requires forall j :: 0 <= j < |pre| ==> !OccursAt(pre + Marker(heading), Marker(heading), j)
    requires forall k :: 0 <= k < |sep| ==> IsSpace(sep[k])
    requires value != [] && Trimmed(value, IsSpace) && '\n' !in value
    requires tail == [] || (|tail| >= 3 && tail[..3] == NextHeading)
    ensures ScalarField(ParseResponse(pre + Marker(heading) + sep + value + tail), heading) == value
  {
    NoNewlineNoHeading(value);
    SectionRoundTrip(pre, heading, sep, value, tail);
  }

  /** The headings of the three fields that hold `entry (evidence)` pairs. */
  predicate IsPairHeading(heading: string) {
    heading in {"Motivations", "Frustrations", "Behavioral habits"}
  }

  /** The field a pair heading fills. */
  function PairField(p: Persona, heading: string): seq<Item>
    requires IsPairHeading(heading)
  {
    match heading
    case "Motivations" => p.motivations
    case "Frustrations" => p.frustrations
    case _ => p.behaviors
  }

  /** Pairs a pair section can hold and give back: at least one, each
      writable and none with a key starting with '*'. */
  predicate PairEntries(items: seq<Item>) {
    items != [] && forall k :: 0 <= k < |items| ==> Writable(items[k]) && items[k].key[0] != '*'
  }

  /** Round trip for a field of pairs: writable pairs, none of whose keys
      starts with '*', written one per line as `key (detail)` after their
      heading, come back as that field, unchanged and in order. */
  lemma PairsRoundTrip(pre: string, heading: string, sep: string, items: seq<Item>, tail: string)
    requires IsPairHeading(heading)
    requires SectionFrame(pre, heading, sep, tail)
    requires PairEntries(items)
    ensures PairField(ParseResponse(pre + Marker(heading) + sep + Join(ItemLines(items), "\n") + tail), heading)
         == items
  {
    PairsSection(pre, heading, sep, items, tail);
  }

  /** The section of such an answer is the pair lines joined, and the pairs
      read from it are the pairs written. */
  lemma PairsSection(pre: string, heading: string, sep: string, items: seq<Item>, tail: string)
    requires SectionFrame(pre, heading, sep, tail)
    requires PairEntries(items)
    ensures ExtractSection(pre + Marker(heading) + sep + Join(ItemLines(items), "\n") + tail, heading)
         == Join(ItemLines(items), "\n")
    ensures ExtractKeyValuePairs(Join(ItemLines(items), "\n")) == items
  {
    var lines := ItemLines(items);
    forall k | 0 <= k < |lines| ensures lines[k] != [] && lines[k][0] != '*' && '\n' !in lines[k] {
      ItemLineNoBreak(items[k]);
      assert lines[k] == items[k].key + (" (" + items[k].detail + ")");
    }
    var last := lines[|lines| - 1];
    assert last[|last| - 1] == ')';
    LinesSectionRoundTrip(pre, heading, sep, lines, tail);
    KeyValueRoundTrip(items);
  }

  /** Entries a goals section can hold and give back: at least one, each
      clean and none starting with '*'. */
  predicate GoalEntries(items: seq<string>) {
    items != [] && forall k :: 0 <= k < |items| ==> CleanEntry(items[k]) && items[k][0] != '*'
  }

  /** Round trip for the goals: clean entries, none starting with '*',
      written one per line after their heading, come back unchanged and in
      order. */
  lemma GoalsRoundTrip(pre: string, sep: string, items: seq<string>, tail: string)
    requires SectionFrame(pre, "Goals and needs", sep, tail)
    requires GoalEntries(items)
    ensures ParseResponse(pre + Marker("Goals and needs") + sep + Join(items, "\n") + tail).goals == items
  {
    GoalsSection(pre, sep, items, tail);
  }

  /** The goals section of such an answer is the entries joined, and its
      bullet list is the entries. */
  lemma GoalsSection(pre: string, sep: string, items: seq<string>, tail: string)
    requires SectionFrame(pre, "Goals and needs", sep, tail)
    requires GoalEntries(items)
    ensures ExtractSection(pre + Marker("Goals and needs") + sep + Join(items, "\n") + tail, "Goals and needs")
         == Join(items, "\n")
    ensures ExtractBulletList(Join(items, "\n")) == items
  {
    forall k | 0 <= k < |items| ensures '\n' !in items[k] {
      assert NoLineBreak(items[k]);
    }
    LinesSectionRoundTrip(pre, "Goals and needs", sep, items, tail);
    BulletListRoundTrip(items);
  }

  /** The personality line written after its heading is the line the bars
      are drawn from. */
  lemma PersonalityRoundTrip(pre: string, sep: string, line: string, tail: string)
    requires SectionFrame(pre, "Personality", sep, tail)
    requires line != [] && Trimmed(line, IsSpace) && '\n' !in line
    ensures ParseResponse(pre + Marker("Personality") + sep + line + tail).personalityBars
         == GeneratePersonalityBars(line)
  {
    NoNewlineNoHeading(line);
    SectionRoundTrip(pre, "Personality", sep, line, tail);
  }
}

=== FILE: profile.dfy ===
/** The profile link check of the web form: a link is accepted when it
    starts with the profile prefix, and the username is cut out of it. */
module Profile {
  import opened Options
  import opened Search
  import opened Trim

  const ProfilePrefix: string := "https://www.reddit.com/user/"

  /** The separator the username is cut at: the prefix's last path step. */
  const UserStep: string := "/user/"

  predicate IsSlash(c: char) {
    c == '/'
  }

  /** `url.startswith(ProfilePrefix)`: the link agrees with the prefix
      character by character, and is then the prefix followed by the rest. */
  predicate HasProfilePrefix(url: string): (b: bool)
    ensures b <==> |ProfilePrefix| <= |url| && forall k :: 0 <= k < |ProfilePrefix| ==> url[k] == ProfilePrefix[k]
    ensures b ==> url == ProfilePrefix + url[|ProfilePrefix|..]
  {
    |ProfilePrefix| <= |url| && url[..|ProfilePrefix|] == ProfilePrefix
  }

  /** `s.rstrip(chars)`, with `drop` deciding membership in `chars`. */
  function StripEnd(s: string, drop: char -> bool): (r: string)
    ensures |r| <= |s| && r == s[..|r|]
    ensures forall k :: |r| <= k < |s| ==> drop(s[k])
    ensures r == [] || !drop(r[|r| - 1])
  {
    s[..KeepUntil(s, drop, 0, |s|)]
  }

  /** The end that `KeepUntil` finds is the only one with its two
      properties. */
  lemma KeepUntilOf(s: string, drop: char -> bool, lo: nat, b: nat, e: nat)
    requires lo <= b <= e <= |s|
    requires forall k :: b <= k < e ==> drop(s[k])
    requires b == lo || !drop(s[b - 1])
    ensures KeepUntil(s, drop, lo, e) == b
  {
  }

  /** `xs[-1]` */
  function Last(xs: seq<string>): string
    requires xs != []
  {
    xs[|xs| - 1]
  }

  /** The username as the form takes it:
      `url.rstrip("/").split("/user/")[-1].split("/")[0]`, or nothing when
      the link does not start with the profile prefix. The username never
      holds a '/'. */
  function ProfileUsername(url: string): (r: Option<string>)
    ensures r.Some? <==> HasProfilePrefix(url)
    ensures r.Some? ==> '/' !in r.value
  {
    if !HasProfilePrefix(url) then None
    else
      var parts := SplitBy(StripEnd(url, IsSlash), UserStep);
      Some(FirstSegment(Last(parts)))
  }

  /** `s.split("/")[0]`: the text before the first '/'. */
  function FirstSegment(s: string): (r: string)
    ensures '/' !in r
  {
    var parts := SplitBy(s, "/");
    assert '/' !in parts[0] by {
      if '/' in parts[0] {
        var j :| 0 <= j < |parts[0]| && parts[0][j] == '/';
        OccursSingle(parts[0], '/', j);
      }
    }
    parts[0]
  }

  /** The first segment of a text is the part before its first '/'. */
  lemma FirstSegmentAt(s: string, i: nat)
    requires i <= |s| && '/' !in s[..i]
    requires i == |s| || s[i] == '/'
    ensures FirstSegment(s) == s[..i]
  {
    FindSpec(s, "/");
    forall j ensures OccursAt(s, "/", j) <==> 0 <= j < |s| && s[j] == '/' {
      OccursSingle(s, '/', j);
    }
    forall j | 0 <= j < i ensures s[j] != '/' {
      assert s[..i][j] == s[j];
    }
    if i == |s| {
      assert s[..i] == s;
      SplitWithoutSeparator(s, '/');
    }
  }

  /** When a text ends with its first copy of the separator and what
      follows holds no copy of the separator, the last part of the split is
      what follows. */
  lemma SplitLastPart(a: string, sep: string, b: string)
    requires |sep| > 0 && |sep| <= |a| && a[|a| - |sep|..] == sep
    requires forall j :: 0 <= j < |a| - |sep| ==> !OccursAt(a, sep, j)
    requires forall j :: !OccursAt(b, sep, j)
    ensures Last(SplitBy(a + b, sep)) == b
  {
    var s := a + b;
    var i := |a| - |sep|;
    assert s[i + |sep|..] == b;
    FirstAtEnd(a, sep, b);
    SplitAtFound(s, sep, Find(s, sep), i);
    SplitNone(b, sep);
  }

  /** When a text begins with its first copy of the separator, the last
      part of the split is the last part of the split of what follows. */
  lemma SplitLastAfter(a: string, sep: string, b: string)
    requires |sep| > 0 && |sep| <= |a| && a[|a| - |sep|..] == sep
    requires forall j :: 0 <= j < |a| - |sep| ==> !OccursAt(a, sep, j)
    ensures Last(SplitBy(a + b, sep)) == Last(SplitBy(b, sep))
  {
    var s := a + b;
    var i := |a| - |sep|;
    FirstAtEnd(a, sep, b);
    assert s[i + |sep|..] == b;
    SplitAtFound(s, sep, Some(i), i);
    LastAppend(s[..i], SplitBy(b, sep));
  }

  /** Putting a part in front does not change the last part. */
  lemma LastAppend(x: string, ys: seq<string>)
    requires ys != []
    ensures Last([x] + ys) == Last(ys)
  {
  }

  /** A text without the separator's last character holds no copy of the
      separator. */
  lemma SplitWithoutLast(b: string, sep: string)
    requires |sep| > 0 && sep[|sep| - 1] !in b
    ensures forall j :: !OccursAt(b, sep, j)
  {
    forall j | 0 <= j && j + |sep| <= |b| ensures !OccursAt(b, sep, j) {
      assert b[j..j + |sep|][|sep| - 1] == b[j + |sep| - 1];
      assert b[j + |sep| - 1] in b;
    }
  }

  /** A separator that first occurs at the end of `a` is found there, in
      `a` followed by anything. */
  lemma FirstAtEnd(a: string, sep: string, b: string)
    requires |sep| <= |a| && a[|a| - |sep|..] == sep
    requires forall j :: 0 <= j < |a| - |sep| ==> !OccursAt(a, sep, j)
    ensures Find(a + b, sep) == Some(|a| - |sep|)
  {
    var s := a + b;
    var i := |a| - |sep|;
    assert s[..|a|] == a;
    assert OccursAt(s, sep, i) by {
      assert s[i..|a|] == a[i..];
    }
    OccursInPrefix(s, sep, |a|);
    FindAt(s, sep, i);
  }

  /** The profile prefix holds "/user/" only at its end. */
  lemma UserStepOnlyAtEnd()
    ensures forall j :: 0 <= j < |ProfilePrefix| - |UserStep| ==> !OccursAt(ProfilePrefix, UserStep, j)
  {
    var s := ProfilePrefix;
    forall j | 0 <= j < |s| - |UserStep| ensures !OccursAt(s, UserStep, j) {
      assert s[j..j + 6][0] == s[j] && s[j..j + 6][5] == s[j + 5];
      assert s[j] == '/' ==> j == 6 || j == 7;
    }
  }

  /** A slash-free name behind the prefix, with any run of trailing
      slashes, comes back as the username. */
  lemma ProfileUsernameRoundTrip(name: string, slashes: string)
    requires name != [] && '/' !in name
    requires forall k :: 0 <= k < |slashes| ==> slashes[k] == '/'
    ensures ProfileUsername(ProfilePrefix + name + slashes) == Some(name)
  {
    var url := ProfilePrefix + name + slashes;
    assert url[..|ProfilePrefix|] == ProfilePrefix;
    var kept := ProfilePrefix + name;
    assert StripEnd(url, IsSlash) == kept by {
      assert url[|kept| - 1] == name[|name| - 1];
      assert name[|name| - 1] in name;
      KeepUntilOf(url, IsSlash, 0, |kept|, |url|);
      assert url[..|kept|] == kept;
    }
    assert ProfilePrefix[|ProfilePrefix| - |UserStep|..] == UserStep;
    UserStepOnlyAtEnd();
    SplitWithoutLast(name, UserStep);
    SplitLastPart(ProfilePrefix, UserStep, name);
    FirstSegmentAt(name, |name|);
    assert name[..|name|] == name;
  }

  /** A name followed by a further path, such as the link of a comment
      `.../user/kojied/comments/x`, gives the name, provided the path after
      the name holds no further "/user/". */
  lemma ProfileUsernamePath(name: string, rest: string)
    requires name != [] && '/' !in name
    requires forall j :: !OccursAt("/" + rest, UserStep, j)
    ensures ProfileUsername(ProfilePrefix + name + "/" + rest) == Some(name)
  {
    var url := ProfilePrefix + name + "/" + rest;
    assert url[..|ProfilePrefix|] == ProfilePrefix;
    var tail := StrippedPath(name, rest);
    assert tail[..|name|] == name by {
      assert (name + "/" + rest)[..|name|] == name;
    }
    assert |tail| > |name| ==> tail[|name|] == '/' by {
      assert (name + "/" + rest)[|name|] == '/';
    }
    NoUserStepAfterName(name, rest, |tail|);
    assert ProfilePrefix[|ProfilePrefix| - |UserStep|..] == UserStep;
    UserStepOnlyAtEnd();
    SplitLastPart(ProfilePrefix, UserStep, tail);
    FirstSegmentAt(tail, |name|);
  }

  /** With a second "/user/" in the link, the form takes the step after the
      last one: `prefix + a + "/user/" + name`, with any trailing slashes,
      gives `name`, where the corrected cut gives `a`. */
  lemma ProfileUsernameLastStep(a: string, name: string, slashes: string)
    requires a != [] && '/' !in a && name != [] && '/' !in name
    requires forall k :: 0 <= k < |slashes| ==> slashes[k] == '/'
    ensures ProfileUsername(ProfilePrefix + a + UserStep + name + slashes) == Some(name)
    ensures ProfileUsernameChecked(ProfilePrefix + a + UserStep + name + slashes) == Some(a)
  {
    LastStepAsWritten(a + UserStep + name, a, name, slashes);
    LastStepChecked(a, name, slashes);
  }

  /** The corrected cut on the same link: the step right after the prefix. */
  lemma LastStepChecked(a: string, name: string, slashes: string)
    requires a != [] && '/' !in a
    ensures ProfileUsernameChecked(ProfilePrefix + a + UserStep + name + slashes) == Some(a)
  {
    var rest := UserStep + name + slashes;
    assert ProfilePrefix + a + UserStep + name + slashes == ProfilePrefix + a + rest;
    CheckedFirstStep(a, rest);
  }

  /** The cut as written, on `prefix + path + slashes` with `path` equal to
      `a + "/user/" + name`: the step after the last "/user/". */
  lemma LastStepAsWritten(path: string, a: string, name: string, slashes: string)
    requires path == a + UserStep + name
    requires '/' !in a && name != [] && '/' !in name
    requires forall k :: 0 <= k < |slashes| ==> slashes[k] == '/'
    ensures ProfileUsername(ProfilePrefix + a + UserStep + name + slashes) == Some(name)
  {
    var url := ProfilePrefix + a + UserStep + name + slashes;
    var kept := ProfilePrefix + path;
    assert url == kept + slashes;
    assert HasProfilePrefix(url) by {
      assert url[..|ProfilePrefix|] == ProfilePrefix;
    }
    assert StripEnd(url, IsSlash) == kept by {
      assert kept[|kept| - 1] == name[|name| - 1];
      assert name[|name| - 1] in name;
      StripSlashes(kept, slashes);
    }
    assert Last(SplitBy(kept, UserStep)) == name by {
      assert ProfilePrefix[|ProfilePrefix| - |UserStep|..] == UserStep;
      UserStepOnlyAtEnd();
      SplitLastAfter(ProfilePrefix, UserStep, path);
      StepAfterSlashFree(a, name);
    }
    assert FirstSegment(name) == name by {
      FirstSegmentAt(name, |name|);
      assert name[..|name|] == name;
    }
  }

  /** `rstrip("/")` removes exactly the trailing slashes from a text that
      does not otherwise end in '/'. */
  lemma StripSlashes(kept: string, slashes: string)
    requires kept != [] && kept[|kept| - 1] != '/'
    requires forall k :: 0 <= k < |slashes| ==> slashes[k] == '/'
    ensures StripEnd(kept + slashes, IsSlash) == kept
  {
    var url := kept + slashes;
    assert url[|kept| - 1] == kept[|kept| - 1];
    KeepUntilOf(url, IsSlash, 0, |kept|, |url|);
    assert url[..|kept|] == kept;
  }

  /** The corrected cut takes the slash-free step right after the prefix,
      up to the end of the link or the next '/'. */
  lemma CheckedFirstStep(a: string, rest: string)
    requires a != [] && '/' !in a
    requires rest == [] || rest[0] == '/'
    ensures ProfileUsernameChecked(ProfilePrefix + a + rest) == Some(a)
  {
    var url := ProfilePrefix + a + rest;
    var tail := a + rest;
    assert url[..|ProfilePrefix|] == ProfilePrefix;
    assert url[|ProfilePrefix|..] == tail;
    assert tail[..|a|] == a;
    assert |tail| > |a| ==> tail[|a|] == '/';
    FirstSegmentAt(tail, |a|);
  }

  /** In `a + "/user/" + name`, with both sides slash-free, the last part of
      the split at "/user/" is `name`. */
  lemma StepAfterSlashFree(a: string, name: string)
    requires '/' !in a && '/' !in name
    ensures Last(SplitBy(a + UserStep + name, UserStep)) == name
  {
    var head := a + UserStep;
    assert head[|head| - |UserStep|..] == UserStep;
    forall j | 0 <= j < |head| - |UserStep| ensures !OccursAt(head, UserStep, j) {
      assert head[j..j + |UserStep|][0] == head[j] == a[j];
      assert a[j] in a;
    }
    SplitWithoutLast(name, UserStep);
    SplitLastPart(head, UserStep, name);
  }

  /** The link `.../user/a/user/b` gives "b" as written, and "a" when cut
      right after the prefix. */
  lemma SecondUserStepExample()
    ensures ProfileUsername(ProfilePrefix + "a/user/b") == Some("b")
    ensures ProfileUsernameChecked(ProfilePrefix + "a/user/b") == Some("a")
  {
    assert ProfilePrefix + "a" + UserStep + "b" + "" == ProfilePrefix + "a/user/b";
    ProfileUsernameLastStep("a", "b", "");
  }

  /** Stripping the trailing slashes of such a link keeps the prefix and a
      beginning of the path that holds at least the name. */
  lemma StrippedPath(name: string, rest: string) returns (tail: string)
    requires name != [] && '/' !in name
    ensures StripEnd(ProfilePrefix + name + "/" + rest, IsSlash) == ProfilePrefix + tail
    ensures |name| <= |tail| <= |name + "/" + rest|
    ensures tail == (name + "/" + rest)[..|tail|]
  {
    var path := name + "/" + rest;
    var url := ProfilePrefix + name + "/" + rest;
    assert url == ProfilePrefix + path;
    var kept := StripEnd(url, IsSlash);
    assert |kept| >= |ProfilePrefix| + |name| by {
      assert url[|ProfilePrefix| + |name| - 1] == name[|name| - 1];
      assert name[|name| - 1] in name;
    }
    tail := path[..|kept| - |ProfilePrefix|];
    assert url[..|kept|] == ProfilePrefix + tail;
  }

  /** A slash-free name followed by a path without "/user/" holds no
      "/user/", nor does any of its beginnings. */
  lemma NoUserStepAfterName(name: string, rest: string, e: nat)
    requires '/' !in name
    requires forall j :: !OccursAt("/" + rest, UserStep, j)
    requires e <= |name + "/" + rest|
    ensures forall j :: !OccursAt((name + "/" + rest)[..e], UserStep, j)
  {
    var path := name + "/" + rest;
    OccursInPrefix(path, UserStep, e);
    OccursInSuffix(path, UserStep, |name|);
    assert path[|name|..] == "/" + rest;
    forall j | 0 <= j < |name| ensures !OccursAt(path, UserStep, j) {
      if j + |UserStep| <= |path| {
        assert path[j..j + |UserStep|][0] == path[j] == name[j];
        assert name[j] in name;
      }
    }
  }

  /** The link of a comment by "kojied" gives "kojied". */
  lemma CommentLinkExample()
    ensures ProfileUsername(ProfilePrefix + "kojied/comments/x") == Some("kojied")
  {
    var rest := "comments/x";
    assert ProfilePrefix + "kojied" + "/" + rest == ProfilePrefix + "kojied/comments/x";
    NoUserStepInExample(rest);
    ProfileUsernamePath("kojied", rest);
  }

  lemma NoUserStepInExample(rest: string)
    requires rest == "comments/x"
    ensures forall j :: !OccursAt("/" + rest, UserStep, j)
  {
    var s := "/" + rest;
    forall j | 0 <= j && j + |UserStep| <= |s| ensures !OccursAt(s, UserStep, j) {
      assert s[j..j + |UserStep|][1] == s[j + 1];
      assert s[j..j + |UserStep|][0] == s[j];
    }
  }

  /** The bare prefix passes the link check, and the username cut from it is
      "https:", the text before the link's first '/'. */
  lemma BarePrefixAccepted()
    ensures ProfileUsername(ProfilePrefix) == Some(ProfilePrefix[..6])
    ensures ProfilePrefix[..6] == "https:"
  {
    var url := ProfilePrefix;
    var kept := url[..|url| - 1];
    assert StripEnd(url, IsSlash) == kept by {
      assert url[|url| - 2] == 'r';
      KeepUntilOf(url, IsSlash, 0, |kept|, |url|);
    }
    assert SplitBy(kept, UserStep) == [kept] by {
      NoUserStep(kept);
      FindSpec(kept, UserStep);
    }
    PrefixScheme();
    assert kept[..7] == ProfilePrefix[..7];
    var head := ProfilePrefix[..6];
    assert kept[..6] == head;
    assert kept[6] == '/';
    assert '/' !in head;
    FirstSegmentAt(kept, 6);
  }

  /** The prefix starts with the scheme, which holds no '/', and a '/'. */
  lemma PrefixScheme()
    ensures ProfilePrefix[..7] == "https:/"
    ensures ProfilePrefix[..6] == "https:" && '/' !in ProfilePrefix[..6]
  {
    assert ProfilePrefix[..6] == ProfilePrefix[..7][..6];
  }

  /** The prefix without its last '/' holds no "/user/". */
  lemma NoUserStep(s: string)
    requires s == ProfilePrefix[..|ProfilePrefix| - 1]
    ensures forall j :: !OccursAt(s, UserStep, j)
  {
    UserStepOnlyAtEnd();
    OccursInPrefix(ProfilePrefix, UserStep, |s|);
  }

  /** The username as the form evidently means it: the path step right
      after the prefix, and nothing when that step is empty. */
  function ProfileUsernameChecked(url: string): (r: Option<string>)
    ensures r.Some? ==> HasProfilePrefix(url)
    ensures r.Some? ==> r.value != [] && '/' !in r.value
  {
    if !HasProfilePrefix(url) then None
    else
      var name := FirstSegment(url[|ProfilePrefix|..]);
      if name == [] then None else Some(name)
  }

  /** The checked username is the text right after the prefix, up to the
      end of the link or the next '/'. */
  lemma CheckedUsernameSpec(url: string)
    ensures ProfileUsernameChecked(url).Some? ==>
      var n := |ProfilePrefix| + |ProfileUsernameChecked(url).value|;
      && n <= |url|
      && url[|ProfilePrefix|..n] == ProfileUsernameChecked(url).value
      && (n == |url| || url[n] == '/')
  {
    if ProfileUsernameChecked(url).Some? {
      var rest := url[|ProfilePrefix|..];
      var parts := SplitBy(rest, "/");
      FindSpec(rest, "/");
      JoinSplit(rest, "/");
      var name := parts[0];
      if |parts| == 1 {
        assert rest == name;
      } else {
        assert Join(parts, "/") == name + "/" + Join(parts[1..], "/");
        assert rest[..|name| + 1] == name + "/";
        assert rest[|name|] == '/';
      }
      assert rest[..|name|] == name;
    }
  }

  /** The checked username agrees with the form on every well-formed link. */
  lemma CheckedUsernameRoundTrip(name: string, slashes: string)
    requires name != [] && '/' !in name
    requires forall k :: 0 <= k < |slashes| ==> slashes[k] == '/'
    ensures ProfileUsernameChecked(ProfilePrefix + name + slashes) == Some(name)
    ensures ProfileUsername(ProfilePrefix + name + slashes) == Some(name)
  {
    var url := ProfilePrefix + name + slashes;
    var rest := name + slashes;
    assert url[|ProfilePrefix|..] == rest;
    assert rest[..|name|] == name;
    assert |slashes| > 0 ==> rest[|name|] == '/';
    FirstSegmentAt(rest, |name|);
    ProfileUsernameRoundTrip(name, slashes);
  }

  /** The checked username rejects a link with no name after the prefix. */
  lemma CheckedRejectsBarePrefix(slashes: string)
    requires forall k :: 0 <= k < |slashes| ==> slashes[k] == '/'
    ensures ProfileUsernameChecked(ProfilePrefix + slashes) == None
  {
    var url := ProfilePrefix + slashes;
    assert url[..|ProfilePrefix|] == ProfilePrefix;
    assert url[|ProfilePrefix|..] == slashes;
    FirstSegmentAt(slashes, 0);
  }
}

=== FILE: search.dfy ===
/** Substring search and splitting: `str.find`, `str.split(sep)`,
    `sep.join`, `str.rsplit(c, 1)` and the greedy character-class runs a
    regex such as `\d+` consumes. */
module Search {
  import opened Options

  /** A slice of a slice is a slice of the original. */
  lemma SliceOfSlice(s: string, i: nat, j: nat, a: nat, b: nat)
    requires i <= j <= |s| && a <= b <= j - i
    ensures s[i..j][a..b] == s[i + a..i + b]
  {
    assert forall k :: 0 <= k < b - a ==> s[i..j][a..b][k] == s[i + a + k];
  }

  /** `pat` occurs in `s` starting at index `i`. */
  predicate OccursAt(s: string, pat: string, i: int) {
    0 <= i && i + |pat| <= |s| && s[i..i + |pat|] == pat
  }

  ghost predicate Contains(s: string, pat: string) {
    exists i :: OccursAt(s, pat, i)
  }

  /** Occurrences in a suffix `s[d..]` are the occurrences in `s` from
      index `d` on, shifted by `d`. */
  lemma OccursInSuffix(s: string, pat: string, d: nat)
    requires d <= |s|
    ensures forall j :: j >= d ==> (OccursAt(s, pat, j) <==> OccursAt(s[d..], pat, j - d))
  {
    forall j | j >= d
      ensures OccursAt(s, pat, j) <==> OccursAt(s[d..], pat, j - d)
    {
      if j + |pat| <= |s| {
        assert s[d..][j - d..j - d + |pat|] == s[j..j + |pat|];
      }
    }
  }

  /** Occurrences in a prefix `s[..e]` are the occurrences in `s` that end
      by index `e`. */
  lemma OccursInPrefix(s: string, pat: string, e: nat)
    requires e <= |s|
    ensures forall j :: OccursAt(s[..e], pat, j) <==> OccursAt(s, pat, j) && j + |pat| <= e
  {
    forall j ensures OccursAt(s[..e], pat, j) <==> OccursAt(s, pat, j) && j + |pat| <= e {
      if 0 <= j && j + |pat| <= e {
        assert s[..e][j..j + |pat|] == s[j..j + |pat|];
      }
    }
  }

  /** A slice taken from a stretch of `s` where no occurrence of `pat`
      starts has no occurrence of `pat` either. */
  lemma NoneInSlice(s: string, pat: string, lo: nat, hi: nat, x: nat, y: nat)
    requires |pat| > 0
    requires lo <= x <= y <= hi <= |s|
    requires forall j :: lo <= j < hi ==> !OccursAt(s, pat, j)
    ensures !Contains(s[x..y], pat)
  {
    forall t ensures !OccursAt(s[x..y], pat, t) {
      if 0 <= t && t + |pat| <= y - x {
        SliceOfSlice(s, x, y, t, t + |pat|);
        assert !OccursAt(s, pat, x + t);
      }
    }
  }

  /** A one-character pattern occurs exactly where that character stands. */
  lemma OccursSingle(s: string, c: char, j: int)
    ensures OccursAt(s, [c], j) <==> 0 <= j < |s| && s[j] == c
  {
    if 0 <= j < |s| {
      assert s[j..j + 1] == [s[j]];
    }
  }

  /** The first occurrence of `pat` in `s` at or after index `k`. What an
      occurrence is, is stated apart, by `FindFromSpec`. */
  function FindFrom(s: string, pat: string, k: nat): (r: Option<nat>)
    ensures r.Some? ==> k <= r.value && r.value + |pat| <= |s|
    decreases |s| - k
  {
    if k + |pat| > |s| then None
    else if OccursAt(s, pat, k) then Some(k)
    else FindFrom(s, pat, k + 1)
  }

  /** `FindFrom` reports an occurrence, none comes earlier, and it reports
      nothing exactly when there is none from `k` on. */
  lemma {:induction false} FindFromSpec(s: string, pat: string, k: nat)
    ensures FindFrom(s, pat, k).Some? ==> OccursAt(s, pat, FindFrom(s, pat, k).value)
    ensures FindFrom(s, pat, k).Some? ==>
      forall j :: k <= j < FindFrom(s, pat, k).value ==> !OccursAt(s, pat, j)
    ensures FindFrom(s, pat, k).None? <==> forall j :: k <= j ==> !OccursAt(s, pat, j)
    decreases |s| - k
  {
    if k + |pat| > |s| {
    } else if OccursAt(s, pat, k) {
    } else {
      FindFromSpec(s, pat, k + 1);
    }
  }

  /** The first occurrence of `pat` in `s`, as `str.find` reports it. */
  function Find(s: string, pat: string): (r: Option<nat>)
    ensures r.Some? ==> r.value + |pat| <= |s|
  {
    FindFrom(s, pat, 0)
  }

  /** `Find` reports the first occurrence, and nothing exactly when there is
      none. */
  lemma FindSpec(s: string, pat: string)
    ensures Find(s, pat).Some? ==> OccursAt(s, pat, Find(s, pat).value)
    ensures Find(s, pat).Some? ==> forall j :: 0 <= j < Find(s, pat).value ==> !OccursAt(s, pat, j)
    ensures Find(s, pat).None? <==> forall j :: !OccursAt(s, pat, j)
  {
    FindFromSpec(s, pat, 0);
    assert forall j :: OccursAt(s, pat, j) ==> 0 <= j;
  }

  /** An occurrence with none before it is the one `Find` reports. */
  lemma FindAt(s: string, pat: string, i: nat)
    requires OccursAt(s, pat, i)
    requires forall j :: 0 <= j < i ==> !OccursAt(s, pat, j)
    ensures Find(s, pat) == Some(i)
  {
    FindSpec(s, pat);
    var v := Find(s, pat).value;
    assert !(v < i) && !(i < v);
  }

  /** `sep.join(parts)` */
  function Join(parts: seq<string>, sep: string): string
    decreases |parts|
  {
    if |parts| == 0 then ""
    else if |parts| == 1 then parts[0]
    else parts[0] + sep + Join(parts[1..], sep)
  }

  /** A join of non-empty parts starts with the first part and ends with
      the last one. */
  lemma {:induction false} JoinEnds(parts: seq<string>, sep: string)
    requires parts != [] && forall k :: 0 <= k < |parts| ==> parts[k] != []
    ensures var s := Join(parts, sep);
      && s != []
      && s[0] == parts[0][0]
      && s[|s| - 1] == parts[|parts| - 1][|parts[|parts| - 1]| - 1]
    decreases |parts|
  {
    if |parts| > 1 {
      JoinEnds(parts[1..], sep);
      var s := Join(parts, sep);
      assert s == parts[0] + (sep + Join(parts[1..], sep));
    }
  }

  /** `s.split(sep)`: cut at each occurrence of `sep`, scanning left to right
      and never letting two cuts overlap. No part contains the separator. */
  function SplitBy(s: string, sep: string): (r: seq<string>)
    requires |sep| > 0
    ensures |r| >= 1
    ensures forall k :: 0 <= k < |r| ==> !Contains(r[k], sep)
    decreases |s|
  {
    FindSpec(s, sep);
    match Find(s, sep)
    case None => [s]
    case Some(i) =>
      var head := s[..i];
      OccursInPrefix(s, sep, i);
      [head] + SplitBy(s[i + |sep|..], sep)
  }

  /** Joining the parts of a split with the same separator gives back the
      text: `sep.join(s.split(sep)) == s`. */
  lemma {:induction false} JoinSplit(s: string, sep: string)
    requires |sep| > 0
    ensures Join(SplitBy(s, sep), sep) == s
    decreases |s|
  {
    FindSpec(s, sep);
    match Find(s, sep)
    case None =>
    case Some(i) =>
      var rest := s[i + |sep|..];
      var parts := SplitBy(rest, sep);
      JoinSplit(rest, sep);
      assert SplitBy(s, sep) == [s[..i]] + parts;
      assert ([s[..i]] + parts)[1..] == parts;
      assert s == s[..i] + sep + rest;
  }

  /** A single-character separator absent from the text leaves it whole. */
  lemma SplitWithoutSeparator(s: string, c: char)
    requires c !in s
    ensures SplitBy(s, [c]) == [s]
  {
    FindSpec(s, [c]);
    forall j ensures OccursAt(s, [c], j) <==> 0 <= j < |s| && s[j] == c {
      OccursSingle(s, c, j);
    }
  }

  /** The split of a text whose first separator was found at `i` is the text
      before it followed by the split of the rest. */
  lemma SplitAtFound(s: string, sep: string, found: Option<nat>, i: nat)
    requires |sep| > 0 && found == Find(s, sep) && found == Some(i)
    ensures i + |sep| <= |s|
    ensures SplitBy(s, sep) == [s[..i]] + SplitBy(s[i + |sep|..], sep)
  {
  }

  /** A text that holds no copy of the separator splits into itself alone. */
  lemma SplitNone(s: string, sep: string)
    requires |sep| > 0 && forall j :: !OccursAt(s, sep, j)
    ensures SplitBy(s, sep) == [s]
  {
    FindSpec(s, sep);
  }

  /** Appending a separator and more text does not move the first separator
      of a text that already has one, and otherwise finds the appended one. */
  lemma FindAppend(s: string, c: char, t: string)
    ensures Find(s + [c] + t, [c]) == if Find(s, [c]).Some? then Find(s, [c]) else Some(|s|)
  {
    var u := s + [c] + t;
    FindSpec(u, [c]);
    FindSpec(s, [c]);
    forall j ensures OccursAt(u, [c], j) <==> 0 <= j < |u| && u[j] == c {
      OccursSingle(u, c, j);
    }
    forall j ensures OccursAt(s, [c], j) <==> 0 <= j < |s| && s[j] == c {
      OccursSingle(s, c, j);
    }
    assert forall j :: 0 <= j < |s| ==> u[j] == s[j];
    assert u[|s|] == c;
  }

  /** Splitting on a single character distributes over appending one more
      separator-free piece: it becomes one more part at the end. */
  lemma {:induction false} SplitAppend(s: string, c: char, t: string)
    requires c !in t
    ensures SplitBy(s + [c] + t, [c]) == SplitBy(s, [c]) + [t]
    decreases |s|
  {
    var u := s + [c] + t;
    FindAppend(s, c, t);
    if Find(s, [c]).None? {
      assert u[..|s|] == s && u[|s| + 1..] == t;
      SplitWithoutSeparator(t, c);
    } else {
      var i := Find(s, [c]).value;
      assert u[..i] == s[..i];
      assert u[i + 1..] == s[i + 1..] + [c] + t;
      SplitAppend(s[i + 1..], c, t);
      var x := SplitBy(s[i + 1..], [c]);
      assert SplitBy(s, [c]) == [s[..i]] + x;
      assert SplitBy(u, [c]) == [s[..i]] + (x + [t]);
    }
  }

  /** The index of the last `c` in `s`: where `s.rsplit(c, 1)` cuts. */
  function LastIndexOf(s: string, c: char): (i: nat)
    requires c in s
    ensures i < |s| && s[i] == c
    ensures forall j :: i < j < |s| ==> s[j] != c
    decreases |s|
  {
    if s[|s| - 1] == c then |s| - 1
    else
      assert c in s[..|s| - 1] by {
        var k :| 0 <= k < |s| && s[k] == c;
        assert s[..|s| - 1][k] == c;
      }
      LastIndexOf(s[..|s| - 1], c)
  }

  /** Where the run of characters satisfying `p` that starts at index `k`
      ends. */
  function SpanFrom(s: string, p: char -> bool, k: nat): (n: nat)
    requires k <= |s|
    ensures k <= n <= |s|
    ensures forall j :: k <= j < n ==> p(s[j])
    ensures n < |s| ==> !p(s[n])
    decreases |s| - k
  {
    if k < |s| && p(s[k]) then SpanFrom(s, p, k + 1) else k
  }

  /** The length of the longest prefix of `s` whose characters satisfy `p`:
      what a greedy `x+` or `x*` for a character class consumes. */
  function Span(s: string, p: char -> bool): (n: nat)
    ensures n <= |s|
    ensures forall k :: 0 <= k < n ==> p(s[k])
    ensures n < |s| ==> !p(s[n])
  {
    SpanFrom(s, p, 0)
  }

  /** A prefix whose characters satisfy `p`, followed by one that does not,
      is exactly what `Span` consumes. */
  lemma SpanOf(a: string, b: string, p: char -> bool)
    requires forall k :: 0 <= k < |a| ==> p(a[k])
    requires b == [] || !p(b[0])
    ensures Span(a + b, p) == |a|
  {
    assert forall k :: 0 <= k < |a| ==> (a + b)[k] == a[k];
    assert |b| > 0 ==> (a + b)[|a|] == b[0];
  }

  /** A run of characters satisfying `p` from `k` to `n`, followed by the end
      or by a character that does not, is exactly what `SpanFrom` consumes. */
  lemma SpanFromOf(s: string, p: char -> bool, k: nat, n: nat)
    requires k <= n <= |s|
    requires forall j :: k <= j < n ==> p(s[j])
    requires n == |s| || !p(s[n])
    ensures SpanFrom(s, p, k) == n
  {
  }
}

=== FILE: section.dfy ===
/** Heading extraction: the pattern `\*\*<heading>:\*\*\s*(.*?)(?=\n\*\*|$)`
    searched with DOTALL, written as an explicit scan. The scan finds the
    first literal marker, skips all whitespace after it, then captures up to
    the first later "\n**" or the end of the text, and strips the capture. */
module Section {
  import opened Options
  import opened Chars
  import opened Trim
  import opened Search

  /** The bold marker `**<heading>:**` that opens a section. */
  function Marker(heading: string): string {
    "**" + heading + ":**"
  }

  /** A line that starts in bold: the lookahead that ends a section. */
  const NextHeading: string := "\n**"

  /** A position where the lookahead `(?=\n\*\*|$)` holds. Without MULTILINE,
      `$` holds at the end of the text and just before a final "\n". */
  predicate IsStop(text: string, j: int) {
    || OccursAt(text, NextHeading, j)
    || j == |text|
    || (0 <= j == |text| - 1 && text[j] == '\n')
  }

  /** Where the lazy capture `(.*?)` that begins at `start` ends; that this
      is the first stop is `CaptureEndIsFirstStop`. */
  function CaptureEnd(text: string, start: nat): (e: nat)
    requires start <= |text|
    ensures start <= e <= |text|
  {
    match FindFrom(text, NextHeading, start)
    // An occurrence of "\n**" ends before the last character, so it always
    // comes before the stops that `$` provides.
    case Some(i) => i
    case None =>
      if start < |text| && text[|text| - 1] == '\n' then |text| - 1 else |text|
  }

  /** The capture ends at the first stop at or after where it begins. */
  lemma CaptureEndIsFirstStop(text: string, start: nat)
    requires start <= |text|
    ensures IsStop(text, CaptureEnd(text, start))
    ensures forall j :: start <= j < CaptureEnd(text, start) ==> !IsStop(text, j)
  {
    FindFromSpec(text, NextHeading, start);
  }

  /** Where the capture begins when the marker ends at `after`: the greedy
      `\s*` takes every whitespace character that follows. */
  function CaptureStart(text: string, after: nat): (start: nat)
    requires after <= |text|
    ensures after <= start <= |text|
    ensures forall k :: after <= k < start ==> IsSpace(text[k])
    ensures start == |text| || !IsSpace(text[start])
  {
    SpanFrom(text, IsSpace, after)
  }

  /** A capture never runs into the next bold line. */
  lemma CaptureHasNoHeading(text: string, start: nat)
    requires start <= |text|
    ensures !Contains(StripSpace(text[start..CaptureEnd(text, start)]), NextHeading)
  {
    var end := CaptureEnd(text, start);
    CaptureEndIsFirstStop(text, start);
    forall j | start <= j < end ensures !OccursAt(text, NextHeading, j) {
      assert !IsStop(text, j);
    }
    var a, b := StripIsSlice(text[start..end], IsSpace);
    SliceOfSlice(text, start, end, a, b);
    NoneInSlice(text, NextHeading, start, end, start + a, start + b);
  }

  /** The stripped capture of a section whose marker ends at `after`. */
  function SectionFrom(text: string, after: nat): (r: string)
    requires after <= |text|
    ensures Trimmed(r, IsSpace)
    ensures !Contains(r, NextHeading)
  {
    var start := CaptureStart(text, after);
    CaptureHasNoHeading(text, start);
    StripSpace(text[start..CaptureEnd(text, start)])
  }

  /** The section after a marker of length `len` found at `found`; nothing
      when the marker was not found. */
  function SectionAfter(text: string, found: Option<nat>, len: nat): (r: string)
    requires found.Some? ==> found.value + len <= |text|
    ensures Trimmed(r, IsSpace)
    ensures !Contains(r, NextHeading)
  {
    match found
    case None => ""
    case Some(i) => SectionFrom(text, i + len)
  }

  /** The section that follows the first occurrence of the marker `m`. */
  function SectionOf(text: string, m: string): (r: string)
    ensures Trimmed(r, IsSpace)
    ensures !Contains(r, NextHeading)
  {
    SectionAfter(text, Find(text, m), |m|)
  }

  /** `extract_section(text, heading)`: the section is stripped of
      whitespace and never runs into the next bold line, so it holds no
      "\n**". */
  function ExtractSection(text: string, heading: string): (r: string)
    ensures Trimmed(r, IsSpace)
    ensures !Contains(r, NextHeading)
  {
    SectionOf(text, Marker(heading))
  }

  /** Without the marker there is no section: the empty string, as
      `re.search` then fails. */
  lemma SectionAbsent(text: string, heading: string)
    requires forall j :: !OccursAt(text, Marker(heading), j)
    ensures ExtractSection(text, heading) == ""
  {
    var m := Marker(heading);
    FindSpec(text, m);
    assert Find(text, m).None?;
  }

  /** The first occurrence of the marker is where `pre` ends, when it does
      not occur earlier. */
  lemma FindMarkerAfter(pre: string, m: string, rest: string)
    requires forall j :: 0 <= j < |pre| ==> !OccursAt(pre + m, m, j)
    ensures Find(pre + m + rest, m) == Some(|pre|)
  {
    var text := pre + m + rest;
    OccursInPrefix(text, m, |pre| + |m|);
    assert text[..|pre| + |m|] == pre + m;
    assert text[|pre|..|pre| + |m|] == m;
    assert OccursAt(text, m, |pre|);
    assert forall j :: 0 <= j < |pre| ==> !OccursAt(text, m, j);
    FindSpec(text, m);
    var r := Find(text, m);
    assert r.Some?;
    assert r.value <= |pre|;
  }

  /** The first stop is unique, so it is where the capture ends. */
  lemma CaptureEndUnique(text: string, start: nat, e: nat)
    requires start <= e <= |text|
    requires IsStop(text, e)
    requires forall j :: start <= j < e ==> !IsStop(text, j)
    ensures CaptureEnd(text, start) == e
  {
    CaptureEndIsFirstStop(text, start);
    var c := CaptureEnd(text, start);
    assert IsStop(text, c);
    assert c <= e;
    assert e <= c;
  }

  /** The capture that starts at a body which is trimmed, holds no "\n**", and
      is followed by the end of the text or by a new bold line, ends exactly
      at the end of the body. */
  lemma CaptureEndAfterBody(text: string, start: nat, body: string, tail: string)
    requires start <= |text| && text == text[..start] + body + tail
    requires body != [] && Trimmed(body, IsSpace)
    requires !Contains(body, NextHeading)
    requires tail == [] || (|tail| >= 3 && tail[..3] == NextHeading)
    ensures CaptureEnd(text, start) == start + |body|
  {
    var e := start + |body|;
    assert text[start..e] == body;
    assert IsStop(text, e) by {
      if tail != [] {
        assert text[e..e + 3] == tail[..3];
      }
    }
    forall j | start <= j < e ensures !IsStop(text, j) {
      assert text[j] == body[j - start];
      assert IsSpace('\n');
      if j + 3 <= e {
        SliceOfSlice(text, start, e, j - start, j - start + 3);
        assert !OccursAt(body, NextHeading, j - start);
      } else if j + 3 <= |text| {
        // A "\n**" that straddles the end of the body would need the body's
        // last character to be '\n', or the tail to start with '*'.
        assert text[j..j + 3][0] == text[j] && text[j..j + 3][2] == text[j + 2];
        if j == e - 1 {
          assert text[j] == body[|body| - 1];
        } else {
          assert tail[..3][0] == tail[0];
          assert j == e - 2 && text[e] == tail[0] == '\n';
        }
      }
      if j == |text| - 1 {
        assert text[j] == body[|body| - 1];
      }
    }
    CaptureEndUnique(text, start, e);
  }

  /** A capture that is already trimmed comes back unchanged. */
  lemma SectionFromAt(text: string, after: nat, start: nat, body: string)
    requires after <= start <= |text|
    requires CaptureStart(text, after) == start
    requires CaptureEnd(text, start) == start + |body|
    requires start + |body| <= |text| && text[start..start + |body|] == body
    requires Trimmed(body, IsSpace)
    ensures SectionFrom(text, after) == body
  {
    StripTrimmed(body, IsSpace);
  }

  /** Once the marker is found at `i` and a trimmed `body` is captured after
      it, the section is `body`. */
  lemma SectionAfterFound(text: string, found: Option<nat>, i: nat, len: nat, start: nat, body: string)
    requires found == Some(i)
    requires i + len <= start <= |text|
    requires CaptureStart(text, i + len) == start
    requires CaptureEnd(text, start) == start + |body|
    requires start + |body| <= |text| && text[start..start + |body|] == body
    requires Trimmed(body, IsSpace)
    ensures SectionAfter(text, found, len) == body
  {
    SectionFromAt(text, i + len, start, body);
  }

  /** Round trip: a marker, then whitespace, then a trimmed body that holds
      no "\n**", then the end or the next bold line, gives back the body,
      provided the marker does not occur earlier. */
  lemma SectionRoundTrip(pre: string, heading: string, sep: string, body: string, tail: string)
    requires forall j :: 0 <= j < |pre| ==> !OccursAt(pre + Marker(heading), Marker(heading), j)
    requires forall k :: 0 <= k < |sep| ==> IsSpace(sep[k])
    requires body != [] && Trimmed(body, IsSpace)
    requires !Contains(body, NextHeading)
    requires tail == [] || (|tail| >= 3 && tail[..3] == NextHeading)
    ensures ExtractSection(pre + Marker(heading) + sep + body + tail, heading) == body
  {
    var m := Marker(heading);
    var head := pre + m + sep;
    var text := pre + Marker(heading) + sep + body + tail;
    assert text == head + body + tail;
    var after := |pre| + |m|;
    var start := |head|;
    assert Find(text, m) == Some(|pre|) by {
      assert text == pre + m + (sep + body + tail);
      FindMarkerAfter(pre, m, sep + body + tail);
    }
    assert CaptureStart(text, after) == start by {
      assert forall k :: after <= k < start ==> text[k] == sep[k - after];
      assert text[start] == body[0];
    }
    assert CaptureEnd(text, start) == start + |body| by {
      assert text[..start] == head;
      CaptureEndAfterBody(text, start, body, tail);
    }
    assert text[start..start + |body|] == body;
    SectionAfterFound(text, Find(text, m), |pre|, |m|, start, body);
  }

  /** Text without a newline cannot hold "\n**". */
  lemma NoNewlineNoHeading(s: string)
    requires '\n' !in s
    ensures !Contains(s, NextHeading)
  {
    forall j ensures !OccursAt(s, NextHeading, j) {
      if 0 <= j && j + 3 <= |s| {
        assert s[j] in s;
        assert s[j..j + 3][0] == s[j];
      }
    }
  }

  /** Lines without '\n', none of them empty or starting with '*', joined
      with '\n' hold no "\n**": every '\n' is followed by the first
      character of a line. */
  lemma {:induction false} JoinedLinesNoHeading(lines: seq<string>)
    requires forall k :: 0 <= k < |lines| ==> lines[k] != [] && lines[k][0] != '*' && '\n' !in lines[k]
    ensures !Contains(Join(lines, "\n"), NextHeading)
    decreases |lines|
  {
    if |lines| == 1 {
      NoNewlineNoHeading(lines[0]);
    } else if |lines| > 1 {
      var l := lines[0];
      var rest := Join(lines[1..], "\n");
      JoinedLinesNoHeading(lines[1..]);
      JoinEnds(lines[1..], "\n");
      var s := Join(lines, "\n");
      assert s == l + "\n" + rest;
      OccursInSuffix(s, NextHeading, |l| + 1);
      assert s[|l| + 1..] == rest;
      forall j | 0 <= j && j + 3 <= |s| ensures !OccursAt(s, NextHeading, j) {
        if j < |l| {
          assert s[j..j + 3][0] == s[j] == l[j];
          assert l[j] in l;
        } else if j == |l| {
          assert s[j..j + 3][1] == s[j + 1] == rest[0];
        } else {
          assert !OccursAt(rest, NextHeading, j - |l| - 1);
        }
      }
    }
  }

  /** The frame a section body is written in: `pre` holds no earlier copy
      of the marker, `sep` is whitespace, and the body is followed by the end
      of the text or by the next bold line. */
  predicate SectionFrame(pre: string, heading: string, sep: string, tail: string) {
    && (forall j :: 0 <= j < |pre| ==> !OccursAt(pre + Marker(heading), Marker(heading), j))
    && (forall k :: 0 <= k < |sep| ==> IsSpace(sep[k]))
    && (tail == [] || (|tail| >= 3 && tail[..3] == NextHeading))
  }

  /** Round trip for a section of several lines: lines without '\n', none
      of them empty or starting with '*', written after the first copy of
      the marker come back joined, provided the whole text does not start
      or end with whitespace. */
  lemma LinesSectionRoundTrip(pre: string, heading: string, sep: string, lines: seq<string>, tail: string)
    requires SectionFrame(pre, heading, sep, tail)
    requires lines != []
    requires forall k :: 0 <= k < |lines| ==> lines[k] != [] && lines[k][0] != '*' && '\n' !in lines[k]
    requires !IsSpace(lines[0][0]) && !IsSpace(lines[|lines| - 1][|lines[|lines| - 1]| - 1])
    ensures ExtractSection(pre + Marker(heading) + sep + Join(lines, "\n") + tail, heading) == Join(lines, "\n")
  {
    JoinedLinesNoHeading(lines);
    JoinEnds(lines, "\n");
    SectionRoundTrip(pre, heading, sep, Join(lines, "\n"), tail);
  }

  /** A heading followed only by whitespace and then the next bold line
      yields that next line's text, not the empty string. */
  lemma EmptySectionTakesNextLine()
    ensures ExtractSection(Marker("Age") + "\n" + "**Occupation:** Engineer", "Age")
         == "**Occupation:** Engineer"
  {
    var body := "**Occupation:** Engineer";
    NoNewlineNoHeading(body);
    assert Trimmed(body, IsSpace) by {
      assert body[0] == '*' && body[|body| - 1] == 'r';
    }
    assert IsSpace("\n"[0]);
    SectionRoundTrip("", "Age", "\n", body, "");
    EmptyEnds(Marker("Age"), "\n", body);
  }

  /** Empty text before and after a concatenation drops out. Used by
      `EmptySectionTakesNextLine` to match its text to the round-trip shape;
      a lemma of its own because the step is costly to prove among the facts
      of that proof. */
  lemma EmptyEnds(a: string, b: string, c: string)
    ensures "" + a + b + c + "" == a + b + c
  {
  }
}

=== FILE: trim.dfy ===
/** Python's `str.strip(chars)`: remove every leading and every trailing
    character of a given class. A bare `strip()` is the same with the
    whitespace class. */
module Trim {
  import opened Chars
  import opened Search

  /** The end of the kept part of `s`: scanning back from `e`, but not
      past `lo`, the index just after the last character that does not
      satisfy `drop`. */
  function KeepUntil(s: string, drop: char -> bool, lo: nat, e: nat): (b: nat)
    requires lo <= e <= |s|
    ensures lo <= b <= e
    ensures forall k :: b <= k < e ==> drop(s[k])
    ensures lo < b ==> !drop(s[b - 1])
    decreases e
  {
    if lo < e && drop(s[e - 1]) then KeepUntil(s, drop, lo, e - 1) else e
  }

  /** Where the kept part of `s` begins: the first character that does not
      satisfy `drop`. */
  function KeptStart(s: string, drop: char -> bool): (a: nat)
    ensures a <= |s|
  {
    SpanFrom(s, drop, 0)
  }

  /** Where the kept part of `s` ends. */
  function KeptEnd(s: string, drop: char -> bool): (b: nat)
    ensures KeptStart(s, drop) <= b <= |s|
  {
    KeepUntil(s, drop, KeptStart(s, drop), |s|)
  }

  /** `s[a..b]` is what remains of `s` once every leading and trailing
      character satisfying `drop` is gone: everything outside the slice
      satisfies it, and the slice, when non-empty, begins and ends with a
      character that does not. */
  ghost predicate TrimmedSlice(s: string, drop: char -> bool, a: int, b: int) {
    && 0 <= a <= b <= |s|
    && (forall k :: 0 <= k < a ==> drop(s[k]))
    && (forall k :: b <= k < |s| ==> drop(s[k]))
    && (a < b ==> !drop(s[a]) && !drop(s[b - 1]))
  }

  /** Neither end of `s` is a character satisfying `drop`. */
  predicate Trimmed(s: string, drop: char -> bool) {
    s == [] || (!drop(s[0]) && !drop(s[|s| - 1]))
  }

  /** `s.strip(chars)`, with `drop` deciding membership in `chars`. */
  function Strip(s: string, drop: char -> bool): (r: string)
    ensures Trimmed(r, drop)
  {
    s[KeptStart(s, drop)..KeptEnd(s, drop)]
  }

  /** The kept part is the trimmed slice. */
  lemma StripKeepsTrimmedSlice(s: string, drop: char -> bool)
    ensures TrimmedSlice(s, drop, KeptStart(s, drop), KeptEnd(s, drop))
  {
  }

  /** `Strip` returns a slice of its input. */
  lemma StripIsSlice(s: string, drop: char -> bool) returns (a: nat, b: nat)
    ensures a <= b <= |s| && Strip(s, drop) == s[a..b]
  {
    a, b := KeptStart(s, drop), KeptEnd(s, drop);
  }

  /** `s.strip()` */
  function StripSpace(s: string): (r: string)
    ensures Trimmed(r, IsSpace)
  {
    Strip(s, IsSpace)
  }

  /** The trimmed slice is unique, so `Strip` is exactly the operation it
      describes. */
  lemma StripUnique(s: string, drop: char -> bool, a: int, b: int)
    requires TrimmedSlice(s, drop, a, b)
    ensures Strip(s, drop) == s[a..b]
  {
    StripKeepsTrimmedSlice(s, drop);
    var a', b' := KeptStart(s, drop), KeptEnd(s, drop);
    if a < b {
      assert !drop(s[a]) && !drop(s[b - 1]);
      assert a' <= a && b <= b';
      assert !drop(s[a']) && !drop(s[b' - 1]);
      assert a <= a' && b' <= b;
    } else {
      assert forall k :: 0 <= k < |s| ==> drop(s[k]);
      assert a' == b';
    }
  }

  /** A string padded on both sides with characters satisfying `drop` strips
      back to itself, provided it neither begins nor ends with one. */
  lemma StripPadded(before: string, m: string, after: string, drop: char -> bool)
    requires forall k :: 0 <= k < |before| ==> drop(before[k])
    requires forall k :: 0 <= k < |after| ==> drop(after[k])
    requires Trimmed(m, drop)
    ensures Strip(before + m + after, drop) == m
  {
    var s := before + m + after;
    assert s[|before|..|before| + |m|] == m;
    assert forall k :: |before| + |m| <= k < |s| ==> s[k] == after[k - |before| - |m|];
    StripUnique(s, drop, |before|, |before| + |m|);
  }

  /** Stripping a string that is already trimmed changes nothing. */
  lemma StripTrimmed(m: string, drop: char -> bool)
    requires Trimmed(m, drop)
    ensures Strip(m, drop) == m
  {
    StripPadded([], m, [], drop);
    assert [] + m + [] == m;
  }

  /** Stripping is idempotent. */
  lemma StripIdempotent(s: string, drop: char -> bool)
    ensures Strip(Strip(s, drop), drop) == Strip(s, drop)
  {
    StripTrimmed(Strip(s, drop), drop);
  }

  /** Stripping leaves nothing exactly when every character satisfies
      `drop`; this is what Python's truth test on `line.strip()` decides. */
  lemma StripEmptyIff(s: string, drop: char -> bool)
    ensures Strip(s, drop) == [] <==> forall k :: 0 <= k < |s| ==> drop(s[k])
  {
    if forall k :: 0 <= k < |s| ==> drop(s[k]) {
      StripUnique(s, drop, 0, 0);
    }
  }

  /** Stripping only removes characters. */
  lemma StripSubset(s: string, drop: char -> bool)
    ensures forall c :: c in Strip(s, drop) ==> c in s
  {
    var a, b := KeptStart(s, drop), KeptEnd(s, drop);
    forall c | c in Strip(s, drop) ensures c in s {
      var k :| 0 <= k < b - a && s[a..b][k] == c;
      assert s[a + k] == c;
    }
  }
}
